=== FILE: README.md ===
# Finance tracker core in Dafny

This project models the data core of a personal finance tracker. The tracker has three owner-scoped tables, `Category`, `Expenses` and `Budget`, and two families of operations on them:

- **The REST routes** (`backend/routes/expense.py`, `backend/routes/category.py`):
  - list expenses, optionally filtered by a category name matched ignoring case;
  - create an expense in one of the caller's categories;
  - fetch an expense by id;
  - delete an expense;
  - list categories;
  - create a category, refusing a duplicate name;
  - delete a category. The foreign keys declare SET NULL for its expenses and CASCADE for its budgets; as written, deleting a category that has a budget fails (see Findings).
- **The assistant's read-only tools** (`backend/ai_agent/tools.py`):
  - the all-time spending summary of a category;
  - the budget health report, grouped into over / approaching (80 % or more) / within;
  - the month's largest expenses, numbered and labelled with their category.

The database is modelled as the immutable value `Ledger.Store`, and each route is a function from a store to a `Result`. A successful result carries the new store and the response. An error is one of the routes' HTTP 400 cases, or the database failure `NotNullViolation`, which surfaces as an unhandled error of the category deletion rather than a 400. The authenticated user and the current month are explicit parameters. Tool outputs are modelled as the structure of the text the tools render.

Modules:

- `Sequences`: `Filter`, `Remove` and `FindFirst` over sequences (the `WHERE` / `.first()` of a query), with their algebra.
- `Ledger`: the rows, the store and the errors. It also holds:
  - the owner filters;
  - ASCII case folding;
  - the category lookups;
  - the `SUM(amount)` aggregate, with a one-pass reference sum;
  - fresh ids;
  - the integrity invariant `WellFormed`.
- `Ranking`: `ORDER BY amount DESC LIMIT n` as a stable insertion sort plus a prefix.
- `Tools`: the three assistant tools. `BudgetStatusLoop` is a method that keeps the shape of `get_budget_status`, its `for budget in budgets` loop appending to three lists, and it is proved equal to the functional definition.
- `ExpenseRoutes`, `CategoryRoutes`: the routes.
- `Isolation`: owner scoping. It proves three things:
  - on a well-formed store, a write by one user never changes another user's rows;
  - every answer depends only on the caller's own rows;
  - every write preserves `WellFormed`: the routes in these files and the declared category deletion. The category deletion as written is covered too, by `Isolation.DeleteCategoryAsWrittenKeepsWellFormed`.
- `Interplay`: how writes show up in the tools' answers.

Three points of the code that a reader might not expect, which the model follows as written:

- **Duplicate category names.** `create_category` refuses only an exact-case duplicate of one of the caller's names (routes/category.py:37), while every lookup by name ignores case. So "Food" and "food" can coexist, and lookups find the first one (`Interplay.CaseVariantShadowed`).
- **Category lookup by id in the tools.** `session.get(Category, id)` (tools.py:73, :142) is not scoped to the owner. It is modelled as a global lookup by id. That the tools only ever show the caller's own category names is proved from the `WellFormed` invariant. Every route in these files preserves it, and the empty store satisfies it. Its budget clause, that a budget's category belongs to the budget's owner, is an assumption: budgets are written outside these files and the schema does not check it.
- **Budget spend.** The budget report compares all-time spend with a "monthly" limit, exactly as the code does.

## Model

| member | source | states |
|---|---|---|
| Ledger.FindCategoryByName | backend/ai_agent/tools.py:29-36 | None exactly when no category of the caller has the name ignoring case; otherwise the result is such a category of the caller |
| Ledger.CategoryById | backend/ai_agent/tools.py:73-74 | the unscoped primary-key lookup: None exactly when no category has the id, otherwise a category with that id |
| Ledger.ExpensesIn | backend/ai_agent/tools.py:41-48 | an expense is selected exactly when it is the caller's and its category column equals the given value (None means IS NULL) |
| Ledger.SpentIsSumIn | backend/ai_agent/tools.py:41-50 | the filtered aggregate equals a one-pass sum over the whole table of the caller's amounts in that category |
| Ledger.SpentWithoutExpenses | backend/ai_agent/tools.py:50 | with no matching row the spend is 0.0, as `total or 0.0` makes it |
| Ledger.FreshCategoryId | backend/models/category_model.py:13 | a new category's primary key is used by no existing category |
| Ledger.FreshExpenseId | backend/models/expense_model.py:12 | a new expense's primary key is used by no existing expense |
| Tools.SpendingSummary | backend/ai_agent/tools.py:16-51 | "not found" exactly when the caller has no category of that name ignoring case, echoing the query; otherwise the matched category's stored name and the caller's all-time spend in it |
| Tools.PercentScales | backend/ai_agent/tools.py:88 | pct × limit = spent × 100 for a positive limit; 0 otherwise |
| Tools.Classify | backend/ai_agent/tools.py:92-97 | over exactly when spent > limit; approaching exactly when the limit is positive, not exceeded and spent ≥ 4/5 of it; within otherwise; the three cases are exclusive |
| Tools.PercentThreshold | backend/ai_agent/tools.py:88-94 | `pct >= 80` holds exactly when the limit is positive and spent ≥ 4/5 of the limit |
| Tools.ClassifyAtLimit100 | backend/ai_agent/tools.py:92-97 | the 80 % rule at a limit of 100 (and of 200): 100.01 of 100 is over, 100 and 80 of 100 are approaching, 79.99 of 100 and 150 of 200 are within |
| Tools.LabelOf | backend/ai_agent/tools.py:73-74 | a budget line shows the raw category id exactly when no category has that id, otherwise the name of a category with that id |
| Tools.EvaluateBudget | backend/ai_agent/tools.py:72-97 | one budget's line: the caller's all-time spend in its category against its limit, with the percentage of the limit spent (`PercentScales` gives its value); the overage is positive for "over", the remainder is non-negative otherwise and at most a fifth of the limit when approaching |
| Tools.BudgetStatus | backend/ai_agent/tools.py:54-68 | the "no budgets" message exactly when the caller owns no budget |
| Tools.AssembleShape | backend/ai_agent/tools.py:99-107 | sections come in the order over, approaching, within; a section appears exactly when its bucket is non-empty; each holds exactly that bucket's lines in budget order |
| Tools.AssembleCount | backend/ai_agent/tools.py:99-107 | the sections together hold every line exactly once by count |
| Tools.BudgetReportShape | backend/ai_agent/tools.py:54-107 | when the caller owns a budget the answer is a report: at least one section, sections ordered by bucket, each line in its own bucket's section, and one line per budget of the caller |
| Tools.BudgetLineOf | backend/ai_agent/tools.py:73-97 | the loop body's statements compute exactly the budget's line: label, spend, limit, percentage, first applicable bucket and the figure shown |
| Tools.GroupByBucket | backend/ai_agent/tools.py:70-97 | the loop over budgets fills the three lists with exactly the lines of each bucket, in budget order |
| Tools.BudgetStatusLoop | backend/ai_agent/tools.py:63-107 | the loop-and-append implementation returns the same report as the functional definition |
| Tools.MonthExpenses | backend/ai_agent/tools.py:124-131 | an expense is considered exactly when it is the caller's and dated in the given month and year |
| Tools.TopExpenses | backend/ai_agent/tools.py:124-135 | min(limit, count) expenses, each the caller's and dated in the month, non-increasing by amount |
| Tools.TopExpensesLargest | backend/ai_agent/tools.py:124-135 | the ranking is drawn from the month's expenses as a multiset and none of the month's expenses left out is larger than one kept |
| Tools.ExpenseLabelOf | backend/ai_agent/tools.py:142-143 | "Uncategorized" exactly when the expense has no category or its category no longer exists, otherwise the name of that category |
| Tools.NoteSuffix | backend/ai_agent/tools.py:144 | the note is shown exactly when it is present and non-empty |
| Tools.TopExpensesReport | backend/ai_agent/tools.py:110-147 | the limit defaults to 5; the "no expenses this month" message exactly when the limit is 0 or the caller has no expense in the month; otherwise the count is between 1 and the limit and equals the number of lines |
| Tools.TopReportLines | backend/ai_agent/tools.py:140-145 | a list answer's lines are numbered from 1, non-increasing by amount, and each shows its top expense's amount and category |
| Tools.DefaultReportAtMostFive | backend/ai_agent/tools.py:110-117 | called without a limit, the tool lists at most five lines, and lists exactly when the caller has an expense in the month |
| Tools.TopReportNonEmpty | backend/ai_agent/tools.py:137-140 | with a positive limit and an expense of the caller in the month the answer is a list, not the empty message |
| ExpenseRoutes.CategoryIdByName | backend/routes/expense.py:17-24 | None exactly when the caller has no category of that name ignoring case; otherwise the id of such a category |
| ExpenseRoutes.AllExpenses | backend/routes/expense.py:37-44 | the message exactly when the caller has no expense; otherwise exactly the caller's expenses in store order |
| ExpenseRoutes.ListExpensesAsWritten | backend/routes/expense.py:10-44 | a present, non-empty category parameter lists exactly the caller's expenses whose category column equals the lookup result, even a None result, none more often than it occurs in the table; otherwise the unfiltered listing |
| ExpenseRoutes.UnknownNameListsUncategorized | backend/routes/expense.py:16-35 | a name matching none of the caller's categories lists the caller's uncategorized expenses |
| ExpenseRoutes.UnknownNameExample | backend/routes/expense.py:16-35 | concrete case: one uncategorized expense, no categories, a search for "Food" returns that expense |
| ExpenseRoutes.ListExpenses | backend/routes/expense.py:16-35 | corrected filter: lists exactly the caller's expenses in the matched category, none more often than it occurs in the table, and nothing for an unknown name |
| ExpenseRoutes.ListingsAgreeOnKnownNames | backend/routes/expense.py:16-35 | the correction changes nothing when there is no filter or the name is known |
| ExpenseRoutes.CreateExpense | backend/routes/expense.py:47-80 | refused exactly when the category is not one of the caller's; otherwise appends one expense with the caller as owner, the given category, amount and note, dated now, under an unused id |
| ExpenseRoutes.GetExpense | backend/routes/expense.py:83-100 | an error exactly when the caller has no expense with that id (another user's id is reported the same way); otherwise the caller's expense with that id |
| ExpenseRoutes.DeleteExpense | backend/routes/expense.py:103-122 | an error exactly when the caller has no expense with that id; otherwise exactly that row leaves the expenses table (as a multiset) and the other tables are unchanged |
| ExpenseRoutes.GetAfterCreate | backend/routes/expense.py:70-100 | a created expense is fetched back by its id |
| ExpenseRoutes.DeleteUndoesCreate | backend/routes/expense.py:103-122 | deleting the expense just created restores the store exactly |
| ExpenseRoutes.GetAfterDelete | backend/routes/expense.py:83-122 | with unique ids, a deleted expense can no longer be fetched |
| CategoryRoutes.ListCategories | backend/routes/category.py:11-23 | the message exactly when the caller has no category; otherwise exactly the caller's categories in store order |
| CategoryRoutes.CreateCategory | backend/routes/category.py:26-52 | refused exactly when the caller already has a category with exactly this name (case-sensitive); otherwise appends one category of the caller under an unused id and returns id and name |
| CategoryRoutes.DuplicateRuleExamples | backend/routes/category.py:34-42 | concrete cases: "Food" twice is refused; "food" after "Food", and another user's "Food", are accepted |
| CategoryRoutes.ClearCategory | backend/models/expense_model.py:14-16 | SET NULL: every expense row stays in place and only a reference to the deleted category is cleared |
| CategoryRoutes.DeleteCategory | backend/routes/category.py:55-74 | the deletion the foreign keys declare: an error naming the id exactly when the caller has no category with it; otherwise that category goes, no expense refers to it, and exactly the budgets on other categories remain, none more often than before |
| CategoryRoutes.DeleteCategoryAsWritten | backend/routes/category.py:55-74 | the route as the ORM runs it: an error naming the id exactly when the caller has no category with it; a NOT NULL failure exactly when the caller's category has a budget; otherwise the category goes, its expenses are unlinked and the budgets are untouched |
| CategoryRoutes.DeletesAgreeWithoutBudget | backend/routes/category.py:71-72 | on a category without a budget the route as written and the declared rules give the same result |
| CategoryRoutes.BudgetedCategoryDeleteFails | backend/routes/category.py:71-72 | concrete case: the caller's category with a budget; the route as written fails, the declared CASCADE removes both |
| Isolation.CreateExpenseIsolated | backend/routes/expense.py:55-80 | creating an expense changes no other user's rows |
| Isolation.DeleteExpenseIsolated | backend/routes/expense.py:109-120 | deleting an expense changes no other user's rows |
| Isolation.CreateCategoryIsolated | backend/routes/category.py:34-52 | creating a category changes no other user's rows |
| Isolation.DeleteCategoryIsolated | backend/routes/category.py:61-72 | on a well-formed store, deleting a category and its cascades changes no other user's rows |
| Isolation.DeleteCategoryAsWrittenIsolated | backend/routes/category.py:55-74 | on a well-formed store, the category deletion as written leaves every other user's view unchanged |
| Isolation.SpendingSummarySeesOwnView | backend/ai_agent/tools.py:29-48 | the spending summary depends only on the caller's own rows |
| Isolation.ExpenseListingsSeeOwnView | backend/routes/expense.py:10-44 | both expense listings (as written and corrected) depend only on the caller's rows |
| Isolation.CategoryListingSeesOwnView | backend/routes/category.py:11-23 | the category listing depends only on the caller's rows |
| Isolation.GetExpenseSeesOwnView | backend/routes/expense.py:89-95 | fetching an expense by id depends only on the caller's rows |
| Isolation.CategoryByIdSeesOwnView | backend/ai_agent/tools.py:73 | on a well-formed store, the unscoped lookup of a category the caller owns finds it in the caller's rows alone |
| Isolation.BudgetStatusSeesOwnView | backend/ai_agent/tools.py:63-107 | on a well-formed store, the budget report depends only on the caller's own rows |
| Isolation.BudgetLineSeesOwnView | backend/ai_agent/tools.py:72-97 | on a well-formed store, a budget line of the caller is the same when computed from the caller's rows alone |
| Isolation.ExpenseLabelSeesOwnView | backend/ai_agent/tools.py:142-143 | on a well-formed store, a caller's expense is labelled the same from the caller's rows alone |
| Isolation.TopExpensesSeesOwnView | backend/ai_agent/tools.py:124-147 | on a well-formed store, the top-expenses report depends only on the caller's own rows |
| Isolation.NonInterference | backend/ai_agent/tools.py:10-13 | two well-formed stores in which the caller owns the same rows give the caller the same three tool answers |
| Isolation.CreateExpenseKeepsWellFormed | backend/routes/expense.py:55-80 | creating an expense keeps ids unique and every reference pointing at a category of the same owner |
| Isolation.DeleteExpenseKeepsWellFormed | backend/routes/expense.py:103-122 | deleting an expense keeps the store well-formed |
| Isolation.CreateCategoryKeepsWellFormed | backend/routes/category.py:44-52 | creating a category keeps the store well-formed |
| Isolation.DeleteCategoryKeepsScoping | backend/models/budget_model.py:15-17 | after the SET NULL and CASCADE, every remaining expense and budget reference points at a remaining category of its owner |
| Isolation.DeleteCategoryKeepsWellFormed | backend/routes/category.py:55-74 | deleting a category keeps the store well-formed |
| Isolation.DeleteCategoryAsWrittenKeepsWellFormed | backend/routes/category.py:55-74 | the category deletion as written preserves `WellFormed`: it either fails and leaves the store, or commits exactly the declared deletion |
| Isolation.EmptyStoreWellFormed | backend/app/database.py:23-24 | the freshly created, empty database satisfies `WellFormed` |
| Interplay.CreateExpenseAddsToSpent | backend/routes/expense.py:70-80 | a new expense adds its amount to its owner's spend in its category and changes no other (user, category) spend |
| Interplay.SummaryAfterCreateExpense | backend/ai_agent/tools.py:41-51 | the summary of the category an expense was recorded in grows by its amount |
| Interplay.ClearCategorySums | backend/models/expense_model.py:14-16 | SET NULL moves a category's amounts into the uncategorized sum and leaves nothing in the category |
| Interplay.DeleteCategoryMovesSpend | backend/routes/category.py:71-72 | after deleting a category, every user's spend in it is 0, the uncategorized spend grows by what it held, and other categories are unchanged |
| Interplay.CreatedCategoryStartsEmpty | backend/routes/category.py:44-52 | a new category whose name no category of the caller shares ignoring case is what the summary finds for that name, at 0 |
| Interplay.FirstCaseVariantWins | backend/ai_agent/tools.py:29-36 | with "Food" before "food", the summary for "food" reports on "Food" |
| Interplay.CaseVariantShadowed | backend/routes/category.py:34-42 | "food" can be created after "Food", and the summary for "food" then reports on "Food" |
| Interplay.ClearUnreferenced | backend/models/expense_model.py:14-16 | SET NULL on a category no expense refers to changes nothing |
| Interplay.DeleteUndoesCreateCategory | backend/routes/category.py:55-74 | on a well-formed store, deleting the category just created restores the store exactly |

## Left out

- The language-model agent (`backend/ai_agent/route.py`), authentication, the HTTP framework and the session plumbing. The caller's id and the database are explicit parameters.
- Asynchrony and concurrent requests: each route and tool is one atomic transition or read.
- Floating point: amounts and limits are exact reals, and the currency (`:.2f`) and percent (`:.0f`) formatting of the tool texts is not modelled. Only the values that fill the text are.
- Wall-clock time: "now" is a parameter. Only an expense's year and month matter.
- UUID primary keys: a fresh id is one more than the largest id in use, which keeps only the property that matters, namely that the id is unused.
- Case folding: `lower()` is modelled on ASCII letters only.
- `.first()` and unordered `SELECT`s return rows in store order. The database leaves that order unspecified.
- Tools.TopExpenses: equal amounts keep store order. The database leaves their order unspecified.
- Tools.TopExpensesReport: the limit is a natural number. A negative limit, which the database rejects, is not modelled.
- Name and note lengths: the request models `CategoryCreate` and `ExpenseCreate` (category_model.py:24-25, expense_model.py:24-27) carry no length limits, and the limits on the table models (category_model.py:17, expense_model.py:20) are not validated. Only the maximum reaches the database, as a column width, so an over-long name or note becomes a database error that the model does not represent; the minimum name length is enforced nowhere and the model accepts any name.
- Rows' `created_at` columns are not modelled.
- Budgets are only read in these files: `backend/routes/budget.py` only lists them (budget.py:10-22), and no route creates or updates one (`BudgetCreate` and `BudgetUpdate` are unused). The budget listing route is not modelled; budgets are part of the store, read by the tools and removed by the category deletion.
- Deleting a user, with its own cascades, is not modelled.
- CategoryRoutes.DeleteCategory: models the deletion the foreign keys declare (SET NULL on expenses, CASCADE on budgets), which the rest of the model uses. The route as written lets the ORM write NULL into the key of every related row first, which fails for a category with a budget; that behaviour is `CategoryRoutes.DeleteCategoryAsWritten`, under Findings.
- Isolation.BudgetStatusSeesOwnView (and Isolation.NonInterference, which relies on it): a budget's category is assumed to belong to the budget's owner (the `BudgetsScoped` clause of `WellFormed`). No code in these files writes budgets and the schema (budget_model.py:15-17) checks only that the category exists. Without that assumption the budget report looks the category up unscoped (tools.py:73) and can show another user's category name.
- Isolation.DeleteCategoryIsolated (and Isolation.DeleteCategoryAsWrittenIsolated): the same assumption. Without it, deleting one user's category cascades away another user's budget on that category.
- Malformed ids: `/expenses/{id}` takes the id as a string (expense.py:85, :105), so an id that is not a UUID reaches the database and fails there rather than as one of the modelled 400s. Ids here are naturals and cannot be malformed.
- Category rows always have an owner here, although the column is nullable. No route creates one without an owner.

## Findings

| source | as written | input that shows it | evidently intended | confidence | as-written member | corrected member |
|---|---|---|---|---|---|---|
| backend/routes/expense.py:16-35 | when the category name matches none of the caller's categories, the lookup yields None and the filter `Expenses.category_id == None` becomes `IS NULL`, so the route lists the caller's uncategorized expenses | the caller has no categories and one expense with no category; `GET /expenses?category=Food` returns that expense | an unknown category name lists no expenses | medium, not executed | ExpenseRoutes.ListExpensesAsWritten | ExpenseRoutes.ListExpenses |
| backend/routes/category.py:71-72 | `session.delete` leaves the related rows to the ORM. Neither relationship (category_model.py:18, :21) declares a delete cascade or passive deletes, so at flush the ORM writes NULL into the foreign key of every expense and budget of the category. A budget's `category_id` is NOT NULL (budget_model.py:15-17), so the deletion fails instead of cascading | the caller owns category 1 and a budget on it; `DELETE /categories/1` fails and nothing is committed | the declared `ondelete="CASCADE"` removes the budget with its category | medium, not executed | CategoryRoutes.DeleteCategoryAsWritten | CategoryRoutes.DeleteCategory |

=== FILE: category_routes.dfy ===
/** The `/categories` routes as transitions on the store, on behalf of the
    authenticated caller `owner`: listing, creation with the per-user
    duplicate-name check, and deletion with the foreign-key rules the
    models declare (expenses SET NULL, budgets CASCADE). */
module CategoryRoutes {
  import opened Sequences
  import opened Ledger

  // ---------------------------------------------------------------------
  // GET /categories

  datatype CategoryListing =
    | NoCategoriesYet                        // {"message": "You dont have any category created yet"}
    | Categories(categories: seq<Category>)

  /** The caller's categories in store order, or the message when there are none. */
  function ListCategories(s: Store, owner: UserId): (r: CategoryListing)
    ensures r.NoCategoriesYet? <==> forall c :: c in s.categories ==> c.userId != owner
    ensures r.Categories? ==> r.categories != [] && forall c :: c in r.categories <==> c in s.categories && c.userId == owner
    ensures r.Categories? ==> r.categories == OwnedCategories(s.categories, owner)
  {
    var cs := OwnedCategories(s.categories, owner);
    if |cs| == 0 then
      assert forall c :: c in s.categories ==> c.userId != owner;
      NoCategoriesYet
    else
      assert cs[0] in s.categories;
      Categories(cs)
  }

  // ---------------------------------------------------------------------
  // POST /categories/create

  /** The response body `{"id": ..., "name": ...}`. */
  datatype CreatedCategory = CreatedCategory(id: Id, name: string)

  /** Creates a category for the caller unless the caller already has one
      with exactly this name (the comparison is case-sensitive). */
  function CreateCategory(s: Store, owner: UserId, name: string): (r: Result<Committed<CreatedCategory>>)
    ensures r.Err? <==> exists c :: c in s.categories && c.userId == owner && c.name == name
    ensures r.Err? ==> r.error == DuplicateCategoryName
    ensures r.Ok? ==>
      var created := r.value.response;
      && created.name == name
      && r.value.store == s.(categories := s.categories + [Category(created.id, owner, name)])
      && forall c :: c in s.categories ==> c.id != created.id
  {
    match FindFirst(s.categories, (c: Category) => c.name == name && c.userId == owner)
    case Some(_) => Err(DuplicateCategoryName)
    case None =>
      var id := FreshCategoryId(s);
      Ok(Committed(s.(categories := s.categories + [Category(id, owner, name)]), CreatedCategory(id, name)))
  }

  /** The duplicate rule on a store holding the caller's "Food": the same
      name is refused, a differently-cased one and another user's are not. */
  lemma DuplicateRuleExamples()
    ensures var s := Store([Category(1, 7, "Food")], [], []);
      && CreateCategory(s, 7, "Food") == Err(DuplicateCategoryName)
      && CreateCategory(s, 7, "food").Ok?
      && CreateCategory(s, 8, "Food").Ok?
  {
    var s := Store([Category(1, 7, "Food")], [], []);
    assert s.categories[0].name == "Food";
    assert "food" != "Food" by { assert "food"[0] != "Food"[0]; }
  }

  // ---------------------------------------------------------------------
  // DELETE /categories/{id}

  /** `ondelete="SET NULL"` applied to one expense row. */
  function Unlinked(e: Expense, id: Id): Expense
  {
    if e.categoryId == Some(id) then e.(categoryId := None) else e
  }

  /** `ondelete="SET NULL"` applied to the expenses table: the rows stay, in
      place, and only their reference to `id` is cleared. */
  function ClearCategory(es: seq<Expense>, id: Id): (r: seq<Expense>)
    ensures |r| == |es|
    ensures forall i :: 0 <= i < |es| ==>
      r[i].categoryId == (if es[i].categoryId == Some(id) then None else es[i].categoryId)
      && r[i] == es[i].(categoryId := r[i].categoryId)
  {
    if es == [] then []
    else [Unlinked(es[0], id)] + ClearCategory(es[1..], id)
  }

  /** Deletes the caller's category with this id. Its expenses (of any user)
      become uncategorized and its budgets (of any user) are removed, as the
      declared foreign-key rules make the database do. */
  function DeleteCategory(s: Store, owner: UserId, id: Id): (r: Result<Committed<Id>>)
    ensures r.Err? <==> forall c :: c in s.categories ==> c.id != id || c.userId != owner
    ensures r.Err? ==> r.error == UnknownCategoryId(id)
    ensures r.Ok? ==>
      var s' := r.value.store;
      && r.value.response == id
      && (exists gone :: gone in s.categories && gone.id == id && gone.userId == owner
            && multiset(s'.categories) == multiset(s.categories)[gone := 0])
      && s'.expenses == ClearCategory(s.expenses, id)
      && (forall e :: e in s'.expenses ==> e.categoryId != Some(id))
      && (forall b :: b in s'.budgets <==> b in s.budgets && b.categoryId != id)
      && multiset(s'.budgets) <= multiset(s.budgets)
  {
    match FindFirst(s.categories, (c: Category) => c.id == id && c.userId == owner)
    case None => Err(UnknownCategoryId(id))
    case Some(gone) =>
      var es := ClearCategory(s.expenses, id);
      assert forall e :: e in es ==> e.categoryId != Some(id) by {
        forall e | e in es ensures e.categoryId != Some(id) {
          var i :| 0 <= i < |es| && es[i] == e;
        }
      }
      FilterSubMultiset(s.budgets, (b: Budget) => b.categoryId != id);
      Ok(Committed(
        Store(Remove(s.categories, gone), es, Filter(s.budgets, (b: Budget) => b.categoryId != id)),
        id))
  }

  /** The route as written. `session.delete` leaves the related rows to the
      ORM, whose relationships declare no delete cascade: at flush it writes
      NULL into the foreign key of every expense and budget of the category,
      before the DELETE. For expenses that is SET NULL; a budget's
      `category_id` is NOT NULL, so the deletion of a category with a budget
      fails and nothing is committed. */
  function DeleteCategoryAsWritten(s: Store, owner: UserId, id: Id): (r: Result<Committed<Id>>)
    ensures r.Err? <==>
      (forall c :: c in s.categories ==> c.id != id || c.userId != owner)
      || exists b :: b in s.budgets && b.categoryId == id
    ensures (forall c :: c in s.categories ==> c.id != id || c.userId != owner) ==> r == Err(UnknownCategoryId(id))
    ensures ((exists c :: c in s.categories && c.id == id && c.userId == owner)
             && exists b :: b in s.budgets && b.categoryId == id) ==> r == Err(NotNullViolation)
    ensures r.Ok? ==>
      var s' := r.value.store;
      && r.value.response == id
      && (exists gone :: gone in s.categories && gone.id == id && gone.userId == owner
            && multiset(s'.categories) == multiset(s.categories)[gone := 0])
      && s'.expenses == ClearCategory(s.expenses, id)
      && s'.budgets == s.budgets
  {
    match FindFirst(s.categories, (c: Category) => c.id == id && c.userId == owner)
    case None => Err(UnknownCategoryId(id))
    case Some(gone) =>
      if exists b :: b in s.budgets && b.categoryId == id then Err(NotNullViolation)
      else Ok(Committed(Store(Remove(s.categories, gone), ClearCategory(s.expenses, id), s.budgets), id))
  }

  /** Without a budget on the category the route as written and the declared
      foreign-key rules agree. */
  lemma DeletesAgreeWithoutBudget(s: Store, owner: UserId, id: Id)
    requires forall b :: b in s.budgets ==> b.categoryId != id
    ensures DeleteCategoryAsWritten(s, owner, id) == DeleteCategory(s, owner, id)
  {
    FilterKeepsAll(s.budgets, (b: Budget) => b.categoryId != id);
  }

  /** The discrepancy: the caller's "Food" with a budget on it. The route as
      written fails; the declared CASCADE deletes the category and its budget. */
  lemma BudgetedCategoryDeleteFails()
    ensures var s := Store([Category(1, 7, "Food")], [], [Budget(1, 7, 1, 100.0)]);
      && DeleteCategoryAsWritten(s, 7, 1) == Err(NotNullViolation)
      && DeleteCategory(s, 7, 1) == Ok(Committed(Store([], [], []), 1))
  {
    var s := Store([Category(1, 7, "Food")], [], [Budget(1, 7, 1, 100.0)]);
    assert s.budgets[0] in s.budgets;
    var r := DeleteCategory(s, 7, 1);
    assert r.Ok?;
    assert |r.value.store.categories| == 0;
    assert r.value.store.budgets == [];
  }
}

=== FILE: expense_routes.dfy ===
/** The `/expenses` routes as transitions on the store, always on behalf of
    one authenticated caller `owner`: listing (all, or by category name),
    creation, lookup by id and deletion. */
module ExpenseRoutes {
  import opened Sequences
  import opened Ledger

  // ---------------------------------------------------------------------
  // GET /expenses

  datatype ExpenseListing =
    | NoExpensesYet                    // {"message": "You dont have any expenses yet"}
    | Listed(expenses: seq<Expense>)

  /** The `category` query parameter is used only when present and non-empty. */
  predicate Filtered(category: Option<string>)
  {
    category.Some? && category.value != ""
  }

  /** `SELECT Category.id ... .first()`: the id of the caller's first category
      named `name` ignoring case, or None. */
  function CategoryIdByName(s: Store, owner: UserId, name: string): (r: Option<Id>)
    ensures r.None? <==> forall c :: c in s.categories && c.userId == owner ==> !SameIgnoringCase(c.name, name)
    ensures r.Some? ==> exists c :: c in s.categories && c.userId == owner && SameIgnoringCase(c.name, name) && c.id == r.value
  {
    match FindCategoryByName(s, owner, name)
    case Some(c) => Some(c.id)
    case None => None
  }

  /** The unfiltered listing: the caller's expenses in store order, or the
      message when the caller has none. */
  function AllExpenses(s: Store, owner: UserId): (r: ExpenseListing)
    ensures r.NoExpensesYet? <==> forall e :: e in s.expenses ==> e.userId != owner
    ensures r.Listed? ==> r.expenses != [] && forall e :: e in r.expenses <==> e in s.expenses && e.userId == owner
    ensures r.Listed? ==> r.expenses == OwnedExpenses(s.expenses, owner)
  {
    var es := OwnedExpenses(s.expenses, owner);
    if |es| == 0 then
      assert forall e :: e in s.expenses ==> e.userId != owner;
      NoExpensesYet
    else
      assert es[0] in s.expenses;
      Listed(es)
  }

  /** The listing as written: the filtered path compares `category_id` with
      the lookup result even when the lookup found nothing, and comparing a
      column with None is SQL's IS NULL. */
  function ListExpensesAsWritten(s: Store, owner: UserId, category: Option<string>): (r: ExpenseListing)
    ensures Filtered(category) ==> r.Listed? && forall e :: e in r.expenses <==>
      e in s.expenses && e.userId == owner && e.categoryId == CategoryIdByName(s, owner, category.value)
    ensures Filtered(category) ==> multiset(r.expenses) <= multiset(s.expenses)
    ensures !Filtered(category) ==> r == AllExpenses(s, owner)
  {
    if Filtered(category) then
      ExpensesInSubMultiset(s, owner, CategoryIdByName(s, owner, category.value));
      Listed(ExpensesIn(s, owner, CategoryIdByName(s, owner, category.value)))
    else AllExpenses(s, owner)
  }

  /** An unknown category name lists the caller's uncategorized expenses. */
  lemma UnknownNameListsUncategorized(s: Store, owner: UserId, name: string)
    requires name != ""
    requires forall c :: c in s.categories && c.userId == owner ==> !SameIgnoringCase(c.name, name)
    ensures ListExpensesAsWritten(s, owner, Some(name)) == Listed(ExpensesIn(s, owner, None))
  {
  }

  /** A concrete instance: one uncategorized expense, no categories, and a
      search for "Food" returns that expense. */
  lemma UnknownNameExample()
    ensures var e := Expense(1, 7, None, 12.5, DateTime(2025, 3, 14, 0), None);
      ListExpensesAsWritten(Store([], [e], []), 7, Some("Food")) == Listed([e])
  {
    var e := Expense(1, 7, None, 12.5, DateTime(2025, 3, 14, 0), None);
    var s := Store([], [e], []);
    assert OwnedExpenses(s.expenses, 7) == [e];
  }

  /** The listing as evidently intended: a name that matches none of the
      caller's categories lists nothing. */
  function ListExpenses(s: Store, owner: UserId, category: Option<string>): (r: ExpenseListing)
    ensures Filtered(category) ==> r.Listed?
    ensures Filtered(category) ==> forall e :: e in r.expenses <==>
      e in s.expenses && e.userId == owner && e.categoryId.Some? && e.categoryId == CategoryIdByName(s, owner, category.value)
    ensures Filtered(category) ==> multiset(r.expenses) <= multiset(s.expenses)
    ensures Filtered(category) && CategoryIdByName(s, owner, category.value).None? ==> r == Listed([])
    ensures !Filtered(category) ==> r == AllExpenses(s, owner)
  {
    if Filtered(category) then
      match CategoryIdByName(s, owner, category.value)
      case Some(id) =>
        ExpensesInSubMultiset(s, owner, Some(id));
        Listed(ExpensesIn(s, owner, Some(id)))
      case None => Listed([])
    else AllExpenses(s, owner)
  }

  /** The correction changes only the unknown-name case. */
  lemma ListingsAgreeOnKnownNames(s: Store, owner: UserId, category: Option<string>)
    requires !Filtered(category) || CategoryIdByName(s, owner, category.value).Some?
    ensures ListExpenses(s, owner, category) == ListExpensesAsWritten(s, owner, category)
  {
  }

  // ---------------------------------------------------------------------
  // POST /expenses/create

  /** The request body. */
  datatype ExpenseCreate = ExpenseCreate(categoryId: Id, amount: real, note: Option<string>)

  /** Records an expense dated `now` in one of the caller's categories. */
  function CreateExpense(s: Store, owner: UserId, data: ExpenseCreate, now: DateTime): (r: Result<Committed<Expense>>)
    ensures r.Err? <==> forall c :: c in s.categories ==> c.id != data.categoryId || c.userId != owner
    ensures r.Err? ==> r.error == CategoryNotFound
    ensures r.Ok? ==>
      var e := r.value.response;
      && r.value.store == s.(expenses := s.expenses + [e])
      && e == Expense(e.id, owner, Some(data.categoryId), data.amount, now, data.note)
      && forall x :: x in s.expenses ==> x.id != e.id
  {
    match FindFirst(s.categories, (c: Category) => c.id == data.categoryId && c.userId == owner)
    case None => Err(CategoryNotFound)
    case Some(_) =>
      var e := Expense(FreshExpenseId(s), owner, Some(data.categoryId), data.amount, now, data.note);
      Ok(Committed(s.(expenses := s.expenses + [e]), e))
  }

  // ---------------------------------------------------------------------
  // GET /expenses/{id}

  /** The caller's expense with this id; another user's id is reported
      exactly like a missing one. */
  function GetExpense(s: Store, owner: UserId, id: Id): (r: Result<Expense>)
    ensures r.Err? <==> forall e :: e in s.expenses ==> e.id != id || e.userId != owner
    ensures r.Err? ==> r.error == ExpenseNotFound
    ensures r.Ok? ==> r.value in s.expenses && r.value.id == id && r.value.userId == owner
  {
    match FindFirst(s.expenses, (e: Expense) => e.id == id && e.userId == owner)
    case None => Err(ExpenseNotFound)
    case Some(e) => Ok(e)
  }

  // ---------------------------------------------------------------------
  // DELETE /expenses/{id}

  /** Deletes the caller's expense with this id: exactly that row goes, every
      other row of every table stays. */
  function DeleteExpense(s: Store, owner: UserId, id: Id): (r: Result<Committed<()>>)
    ensures r.Err? <==> forall e :: e in s.expenses ==> e.id != id || e.userId != owner
    ensures r.Err? ==> r.error == ExpenseDoesNotExist
    ensures r.Ok? ==>
      var s' := r.value.store;
      && s'.categories == s.categories && s'.budgets == s.budgets
      && exists gone :: gone in s.expenses && gone.id == id && gone.userId == owner
           && multiset(s'.expenses) == multiset(s.expenses)[gone := 0]
           && |s'.expenses| < |s.expenses|
  {
    match GetExpense(s, owner, id)
    case Err(_) => Err(ExpenseDoesNotExist)
    case Ok(gone) =>
      var rest := Remove(s.expenses, gone);
      assert |rest| < |s.expenses| by {
        var dropped := multiset(s.expenses) - multiset(rest);
        assert gone in dropped;
        assert multiset(s.expenses) == multiset(rest) + dropped;
      }
      Ok(Committed(s.(expenses := rest), ()))
  }

  // ---------------------------------------------------------------------
  // Round trips

  /** A created expense can be fetched back by its id. */
  lemma {:induction false} GetAfterCreate(s: Store, owner: UserId, data: ExpenseCreate, now: DateTime)
    requires CreateExpense(s, owner, data, now).Ok?
    ensures var c := CreateExpense(s, owner, data, now).value;
      GetExpense(c.store, owner, c.response.id) == Ok(c.response)
  {
    var c := CreateExpense(s, owner, data, now).value;
    var e := c.response;
    var r := GetExpense(c.store, owner, e.id);
    assert e in c.store.expenses;
    assert r.Ok?;
    assert r.value in s.expenses + [e];
  }

  /** Deleting the expense just created restores the store. */
  lemma {:induction false} DeleteUndoesCreate(s: Store, owner: UserId, data: ExpenseCreate, now: DateTime)
    requires CreateExpense(s, owner, data, now).Ok?
    ensures var c := CreateExpense(s, owner, data, now).value;
      DeleteExpense(c.store, owner, c.response.id) == Ok(Committed(s, ()))
  {
    var c := CreateExpense(s, owner, data, now).value;
    var e := c.response;
    GetAfterCreate(s, owner, data, now);
    RemoveAppended(s.expenses, e);
  }

  /** After a deletion the id is gone for its owner, given unique ids. */
  lemma GetAfterDelete(s: Store, owner: UserId, id: Id)
    requires UniqueIds(s)
    requires DeleteExpense(s, owner, id).Ok?
    ensures GetExpense(DeleteExpense(s, owner, id).value.store, owner, id) == Err(ExpenseNotFound)
  {
    var s' := DeleteExpense(s, owner, id).value.store;
    forall e | e in s'.expenses ensures e.id != id || e.userId != owner {
      var gone :| gone in s.expenses && gone.id == id && gone.userId == owner
           && multiset(s'.expenses) == multiset(s.expenses)[gone := 0];
      assert e in multiset(s'.expenses);
    }
  }
}

=== FILE: interplay.dfy ===
/** How the writes of the routes show up in the tools' answers: a new
    expense adds its amount to its category's spend, deleting a category
    moves its spend to "uncategorized", a new category starts at zero, and
    deleting a just-created category restores the store. */
module Interplay {
  import opened Sequences
  import opened Ledger
  import opened Tools
  import opened ExpenseRoutes
  import opened CategoryRoutes

  // ---------------------------------------------------------------------
  // Creating an expense

  /** A recorded expense adds its amount to exactly one (owner, category)
      spend; every other spend is unchanged. */
  lemma CreateExpenseAddsToSpent(s: Store, owner: UserId, data: ExpenseCreate, now: DateTime,
                                 u: UserId, categoryId: Option<Id>)
    requires CreateExpense(s, owner, data, now).Ok?
    ensures var s' := CreateExpense(s, owner, data, now).value.store;
      Spent(s', u, categoryId) ==
        Spent(s, u, categoryId) + (if u == owner && categoryId == Some(data.categoryId) then data.amount else 0.0)
  {
    var c := CreateExpense(s, owner, data, now).value;
    var e := c.response;
    SpentIsSumIn(s, u, categoryId);
    SpentIsSumIn(c.store, u, categoryId);
    SumInAppend(s.expenses, [e], u, categoryId);
    assert [e][1..] == [];
  }

  /** The spending summary of the category an expense was just recorded in
      grows by its amount, when the name resolves to that category. */
  lemma SummaryAfterCreateExpense(s: Store, owner: UserId, data: ExpenseCreate, now: DateTime, name: string)
    requires CreateExpense(s, owner, data, now).Ok?
    requires FindCategoryByName(s, owner, name).Some?
    requires FindCategoryByName(s, owner, name).value.id == data.categoryId
    ensures var s' := CreateExpense(s, owner, data, now).value.store;
      && SpendingSummary(s', owner, name).TotalSpent?
      && SpendingSummary(s', owner, name).total == SpendingSummary(s, owner, name).total + data.amount
  {
    CreateExpenseAddsToSpent(s, owner, data, now, owner, Some(data.categoryId));
  }

  // ---------------------------------------------------------------------
  // Deleting a category

  /** SET NULL moves the amounts in `id` into the uncategorized sum. */
  lemma {:induction false} ClearCategorySums(es: seq<Expense>, id: Id, u: UserId)
    ensures SumIn(ClearCategory(es, id), u, None) == SumIn(es, u, None) + SumIn(es, u, Some(id))
    ensures SumIn(ClearCategory(es, id), u, Some(id)) == 0.0
  {
    if es != [] {
      ClearCategorySums(es[1..], id, u);
      assert ClearCategory(es, id) == [Unlinked(es[0], id)] + ClearCategory(es[1..], id);
    }
  }

  /** SET NULL leaves the spend of every other category alone. */
  lemma {:induction false} ClearCategoryKeepsOthers(es: seq<Expense>, id: Id, u: UserId, other: Id)
    requires other != id
    ensures SumIn(ClearCategory(es, id), u, Some(other)) == SumIn(es, u, Some(other))
  {
    if es != [] {
      ClearCategoryKeepsOthers(es[1..], id, u, other);
      assert ClearCategory(es, id) == [Unlinked(es[0], id)] + ClearCategory(es[1..], id);
    }
  }

  /** After a category is deleted, every user's spend in it is 0, what was
      spent in it is counted as uncategorized, and the other categories'
      spend is unchanged. */
  lemma DeleteCategoryMovesSpend(s: Store, owner: UserId, id: Id, u: UserId)
    requires DeleteCategory(s, owner, id).Ok?
    ensures var s' := DeleteCategory(s, owner, id).value.store;
      && Spent(s', u, Some(id)) == 0.0
      && Spent(s', u, None) == Spent(s, u, None) + Spent(s, u, Some(id))
      && forall other: Id :: other != id ==> Spent(s', u, Some(other)) == Spent(s, u, Some(other))
  {
    var s' := DeleteCategory(s, owner, id).value.store;
    ClearCategorySums(s.expenses, id, u);
    SpentIsSumIn(s', u, Some(id));
    SpentIsSumIn(s', u, None);
    SpentIsSumIn(s, u, None);
    SpentIsSumIn(s, u, Some(id));
    forall other: Id | other != id ensures Spent(s', u, Some(other)) == Spent(s, u, Some(other)) {
      ClearCategoryKeepsOthers(s.expenses, id, u, other);
      SpentIsSumIn(s', u, Some(other));
      SpentIsSumIn(s, u, Some(other));
    }
  }

  // ---------------------------------------------------------------------
  // Creating a category

  /** No expense of a well-formed store refers to an unused category id. */
  lemma NoExpenseInUnusedCategory(s: Store, u: UserId, id: Id)
    requires ExpensesScoped(s)
    requires forall c :: c in s.categories ==> c.id != id
    ensures Spent(s, u, Some(id)) == 0.0
  {
    SpentWithoutExpenses(s, u, Some(id));
  }

  /** A new category whose name no category of the caller shares (ignoring
      case) is what the summary finds for that name, with nothing spent. */
  lemma CreatedCategoryStartsEmpty(s: Store, owner: UserId, name: string)
    requires ExpensesScoped(s)
    requires forall c :: c in s.categories && c.userId == owner ==> !SameIgnoringCase(c.name, name)
    ensures CreateCategory(s, owner, name).Ok?
    ensures SpendingSummary(CreateCategory(s, owner, name).value.store, owner, name) == TotalSpent(name, 0.0)
  {
    var r := CreateCategory(s, owner, name);
    assert r.Ok?;
    var made := Category(r.value.response.id, owner, name);
    var s' := r.value.store;
    assert made in s'.categories;
    var found := FindCategoryByName(s', owner, name);
    assert found.Some?;
    assert found.value == made;
    assert ExpensesScoped(s');
    NoExpenseInUnusedCategory(s, owner, made.id);
    assert s'.expenses == s.expenses;
  }

  lemma FoodMatchesLowerCase()
    ensures SameIgnoringCase("Food", "food")
  {
    assert Lower("Food") == "food";
    assert Lower("food") == "food";
  }

  /** On a store holding the caller's "Food" and then "food", the summary
      for "food" reports on "Food", the first match. */
  lemma FirstCaseVariantWins()
    ensures var s := Store([Category(1, 7, "Food"), Category(2, 7, "food")], [], []);
      SpendingSummary(s, 7, "food") == TotalSpent("Food", 0.0)
  {
    var s := Store([Category(1, 7, "Food"), Category(2, 7, "food")], [], []);
    FoodMatchesLowerCase();
    assert OwnedCategories(s.categories, 7) == s.categories;
    assert FindCategoryByName(s, 7, "food") == Some(Category(1, 7, "Food"));
  }

  /** The name lookup ignores case but the duplicate check does not: after
      "Food", a "food" can be created, and the summary for "food" still
      reports on the first, "Food". */
  lemma CaseVariantShadowed()
    ensures var s1 := CreateCategory(Store([], [], []), 7, "Food").value.store;
      && CreateCategory(s1, 7, "food").Ok?
      && SpendingSummary(CreateCategory(s1, 7, "food").value.store, 7, "food") == TotalSpent("Food", 0.0)
  {
    var s1 := CreateCategory(Store([], [], []), 7, "Food").value.store;
    assert s1.categories == [Category(1, 7, "Food")];
    assert "food" != "Food" by { assert "food"[0] != "Food"[0]; }
    var s2 := CreateCategory(s1, 7, "food").value.store;
    assert s2 == Store([Category(1, 7, "Food"), Category(2, 7, "food")], [], []);
    FirstCaseVariantWins();
  }

  /** SET NULL on a category nobody refers to changes nothing. */
  lemma ClearUnreferenced(es: seq<Expense>, id: Id)
    requires forall e :: e in es ==> e.categoryId != Some(id)
    ensures ClearCategory(es, id) == es
  {
    var r := ClearCategory(es, id);
    forall i | 0 <= i < |es| ensures r[i] == es[i] {
      assert es[i] in es;
    }
  }

  /** Deleting the category just created restores a well-formed store. */
  lemma DeleteUndoesCreateCategory(s: Store, owner: UserId, name: string)
    requires WellFormed(s)
    requires CreateCategory(s, owner, name).Ok?
    ensures var c := CreateCategory(s, owner, name).value;
      DeleteCategory(c.store, owner, c.response.id) == Ok(Committed(s, c.response.id))
  {
    var c := CreateCategory(s, owner, name).value;
    var id := c.response.id;
    var made := Category(id, owner, name);
    var s' := c.store;
    assert made in s'.categories;
    var found := FindFirst(s'.categories, (x: Category) => x.id == id && x.userId == owner);
    assert found.Some?;
    assert found.value == made by {
      assert found.value in s.categories + [made];
    }
    assert made !in s.categories;
    RemoveAppended(s.categories, made);
    forall e | e in s.expenses ensures e.categoryId != Some(id) {
      if e.categoryId == Some(id) {
        assert false;
      }
    }
    ClearUnreferenced(s.expenses, id);
    forall b | b in s.budgets ensures b.categoryId != id {
      if b.categoryId == id {
        assert false;
      }
    }
    FilterKeepsAll(s.budgets, (b: Budget) => b.categoryId != id);
  }
}

=== FILE: isolation.dfy ===
/** Owner scoping. Every route and tool acts for one caller; this module
    proves that (1) no transition by one user changes what any other user
    owns, (2) every answer a user gets depends only on the rows that user
    owns, and (3) the transitions keep the database integrity the scoping
    argument relies on. */
module Isolation {
  import opened Sequences
  import opened Ledger
  import opened Tools
  import opened ExpenseRoutes
  import opened CategoryRoutes

  /** The rows of `s` owned by `u`, in store order. */
  function View(s: Store, u: UserId): Store
  {
    Store(OwnedCategories(s.categories, u), OwnedExpenses(s.expenses, u), OwnedBudgets(s.budgets, u))
  }

  // ---------------------------------------------------------------------
  // Helpers: how the owner filters react to the writes

  lemma OwnedExpensesAppendOther(es: seq<Expense>, e: Expense, u: UserId)
    requires e.userId != u
    ensures OwnedExpenses(es + [e], u) == OwnedExpenses(es, u)
  {
    FilterAppend(es, [e], (x: Expense) => x.userId == u);
  }

  lemma OwnedCategoriesAppendOther(cs: seq<Category>, c: Category, u: UserId)
    requires c.userId != u
    ensures OwnedCategories(cs + [c], u) == OwnedCategories(cs, u)
  {
    FilterAppend(cs, [c], (x: Category) => x.userId == u);
  }

  lemma OwnedExpensesRemoveOther(es: seq<Expense>, gone: Expense, u: UserId)
    requires gone.userId != u
    ensures OwnedExpenses(Remove(es, gone), u) == OwnedExpenses(es, u)
  {
    RemoveThenFilter(es, gone, (x: Expense) => x.userId == u);
  }

  lemma OwnedCategoriesRemoveOther(cs: seq<Category>, gone: Category, u: UserId)
    requires gone.userId != u
    ensures OwnedCategories(Remove(cs, gone), u) == OwnedCategories(cs, u)
  {
    RemoveThenFilter(cs, gone, (x: Category) => x.userId == u);
  }

  lemma OwnedBudgetsDropUnrelated(bs: seq<Budget>, id: Id, u: UserId)
    requires forall b :: b in bs && b.userId == u ==> b.categoryId != id
    ensures OwnedBudgets(Filter(bs, (b: Budget) => b.categoryId != id), u) == OwnedBudgets(bs, u)
  {
    FilterFilter(bs, (b: Budget) => b.categoryId != id, (b: Budget) => b.userId == u);
  }

  /** Clearing a category no row of `u` refers to leaves `u`'s rows alone. */
  lemma {:induction false} OwnedExpensesClearUnrelated(es: seq<Expense>, id: Id, u: UserId)
    requires forall e :: e in es && e.userId == u ==> e.categoryId != Some(id)
    ensures OwnedExpenses(ClearCategory(es, id), u) == OwnedExpenses(es, u)
  {
    if es != [] {
      assert es[0] in es;
      assert forall e :: e in es[1..] ==> e in es;
      OwnedExpensesClearUnrelated(es[1..], id, u);
      assert ClearCategory(es, id) == [Unlinked(es[0], id)] + ClearCategory(es[1..], id);
    }
  }

  // ---------------------------------------------------------------------
  // (1) A write by `a` leaves every other user's rows as they were

  lemma CreateExpenseIsolated(s: Store, a: UserId, data: ExpenseCreate, now: DateTime, b: UserId)
    requires a != b
    ensures View(After(s, CreateExpense(s, a, data, now)), b) == View(s, b)
  {
    var r := CreateExpense(s, a, data, now);
    if r.Ok? {
      OwnedExpensesAppendOther(s.expenses, r.value.response, b);
    }
  }

  lemma DeleteExpenseIsolated(s: Store, a: UserId, id: Id, b: UserId)
    requires a != b
    ensures View(After(s, DeleteExpense(s, a, id)), b) == View(s, b)
  {
    var r := DeleteExpense(s, a, id);
    if r.Ok? {
      var gone := GetExpense(s, a, id).value;
      assert r.value.store.expenses == Remove(s.expenses, gone);
      OwnedExpensesRemoveOther(s.expenses, gone, b);
    }
  }

  lemma CreateCategoryIsolated(s: Store, a: UserId, name: string, b: UserId)
    requires a != b
    ensures View(After(s, CreateCategory(s, a, name)), b) == View(s, b)
  {
    var r := CreateCategory(s, a, name);
    if r.Ok? {
      OwnedCategoriesAppendOther(s.categories, Category(r.value.response.id, a, name), b);
    }
  }

  /** Deleting a category cascades through the expense and budget tables;
      on a well-formed store only the deleting user's rows refer to it. */
  lemma DeleteCategoryIsolated(s: Store, a: UserId, id: Id, b: UserId)
    requires WellFormed(s)
    requires a != b
    ensures View(After(s, DeleteCategory(s, a, id)), b) == View(s, b)
  {
    var r := DeleteCategory(s, a, id);
    if r.Ok? {
      var gone := FindFirst(s.categories, (c: Category) => c.id == id && c.userId == a).value;
      assert r.value.store.categories == Remove(s.categories, gone);
      OwnedCategoriesRemoveOther(s.categories, gone, b);
      forall e | e in s.expenses && e.userId == b ensures e.categoryId != Some(id) {
        if e.categoryId == Some(id) {
          assert false;
        }
      }
      OwnedExpensesClearUnrelated(s.expenses, id, b);
      forall x | x in s.budgets && x.userId == b ensures x.categoryId != id {
        if x.categoryId == id {
          assert false;
        }
      }
      OwnedBudgetsDropUnrelated(s.budgets, id, b);
    }
  }

  /** The category deletion as written is isolated too: when it commits it
      is the declared deletion. */
  lemma DeleteCategoryAsWrittenIsolated(s: Store, a: UserId, id: Id, b: UserId)
    requires WellFormed(s)
    requires a != b
    ensures View(After(s, DeleteCategoryAsWritten(s, a, id)), b) == View(s, b)
  {
    if DeleteCategoryAsWritten(s, a, id).Ok? {
      DeletesAgreeWithoutBudget(s, a, id);
      DeleteCategoryIsolated(s, a, id, b);
    }
  }

  // ---------------------------------------------------------------------
  // (2) Every answer depends only on the caller's own rows

  lemma OwnedTwice(s: Store, u: UserId)
    ensures OwnedCategories(View(s, u).categories, u) == OwnedCategories(s.categories, u)
    ensures OwnedExpenses(View(s, u).expenses, u) == OwnedExpenses(s.expenses, u)
    ensures OwnedBudgets(View(s, u).budgets, u) == OwnedBudgets(s.budgets, u)
  {
    FilterFilter(s.categories, (c: Category) => c.userId == u, (c: Category) => c.userId == u);
    FilterFilter(s.expenses, (e: Expense) => e.userId == u, (e: Expense) => e.userId == u);
    FilterFilter(s.budgets, (b: Budget) => b.userId == u, (b: Budget) => b.userId == u);
  }

  lemma SpentSeesOwnView(s: Store, u: UserId, categoryId: Option<Id>)
    ensures Spent(View(s, u), u, categoryId) == Spent(s, u, categoryId)
  {
    OwnedTwice(s, u);
  }

  lemma SpendingSummarySeesOwnView(s: Store, u: UserId, name: string)
    ensures SpendingSummary(View(s, u), u, name) == SpendingSummary(s, u, name)
  {
    OwnedTwice(s, u);
    var c := FindCategoryByName(s, u, name);
    if c.Some? {
      SpentSeesOwnView(s, u, Some(c.value.id));
    }
  }

  lemma ExpenseListingsSeeOwnView(s: Store, u: UserId, category: Option<string>)
    ensures ListExpensesAsWritten(View(s, u), u, category) == ListExpensesAsWritten(s, u, category)
    ensures ListExpenses(View(s, u), u, category) == ListExpenses(s, u, category)
  {
    OwnedTwice(s, u);
  }

  lemma CategoryListingSeesOwnView(s: Store, u: UserId)
    ensures ListCategories(View(s, u), u) == ListCategories(s, u)
  {
    OwnedTwice(s, u);
  }

  lemma GetExpenseSeesOwnView(s: Store, u: UserId, id: Id)
    ensures GetExpense(View(s, u), u, id) == GetExpense(s, u, id)
  {
    FindFirstFilter(s.expenses, (e: Expense) => e.id == id && e.userId == u, (e: Expense) => e.userId == u);
  }

  /** On a well-formed store, the category a caller's row points to is one
      of the caller's own, so the unscoped lookup by id finds it in the
      caller's view as well. */
  lemma CategoryByIdSeesOwnView(s: Store, u: UserId, id: Id)
    requires WellFormed(s)
    requires exists c :: c in s.categories && c.id == id && c.userId == u
    ensures CategoryById(View(s, u), id) == CategoryById(s, id)
  {
    var c :| c in s.categories && c.id == id && c.userId == u;
    assert c in View(s, u).categories;
  }

  lemma BudgetStatusSeesOwnView(s: Store, u: UserId)
    requires WellFormed(s)
    ensures BudgetStatus(View(s, u), u) == BudgetStatus(s, u)
  {
    OwnedTwice(s, u);
    var bs := OwnedBudgets(s.budgets, u);
    forall i | 0 <= i < |bs| ensures EvaluateBudget(View(s, u), u, bs[i]) == EvaluateBudget(s, u, bs[i]) {
      assert bs[i] in s.budgets;
      BudgetLineSeesOwnView(s, u, bs[i]);
    }
    assert EvaluateAll(View(s, u), u, bs) == EvaluateAll(s, u, bs);
  }

  lemma BudgetLineSeesOwnView(s: Store, u: UserId, b: Budget)
    requires WellFormed(s)
    requires b in s.budgets && b.userId == u
    ensures EvaluateBudget(View(s, u), u, b) == EvaluateBudget(s, u, b)
  {
    CategoryByIdSeesOwnView(s, u, b.categoryId);
    SpentSeesOwnView(s, u, Some(b.categoryId));
  }

  lemma ExpenseLabelSeesOwnView(s: Store, u: UserId, e: Expense)
    requires WellFormed(s)
    requires e in s.expenses && e.userId == u
    ensures ExpenseLabelOf(View(s, u), e) == ExpenseLabelOf(s, e)
  {
    if e.categoryId.Some? {
      CategoryByIdSeesOwnView(s, u, e.categoryId.value);
    }
  }

  lemma TopExpensesSeesOwnView(s: Store, u: UserId, now: YearMonth, limit: nat)
    requires WellFormed(s)
    ensures TopExpensesReport(View(s, u), u, now, limit) == TopExpensesReport(s, u, now, limit)
  {
    OwnedTwice(s, u);
    assert MonthExpenses(View(s, u), u, now) == MonthExpenses(s, u, now);
    var top := TopExpenses(s, u, now, limit);
    assert TopExpenses(View(s, u), u, now, limit) == top;
    var l1, l2 := NumberLines(View(s, u), top), NumberLines(s, top);
    forall i | 0 <= i < |top| ensures l1[i] == l2[i] {
      ExpenseLabelSeesOwnView(s, u, top[i]);
    }
    assert l1 == l2;
  }

  /** Two stores in which `u` owns the same rows give `u` the same answers:
      nothing another user owns, however it is named, reaches `u`. */
  lemma NonInterference(s1: Store, s2: Store, u: UserId, name: string, now: YearMonth, limit: nat)
    requires WellFormed(s1) && WellFormed(s2)
    requires View(s1, u) == View(s2, u)
    ensures SpendingSummary(s1, u, name) == SpendingSummary(s2, u, name)
    ensures BudgetStatus(s1, u) == BudgetStatus(s2, u)
    ensures TopExpensesReport(s1, u, now, limit) == TopExpensesReport(s2, u, now, limit)
  {
    SpendingSummarySeesOwnView(s1, u, name);
    SpendingSummarySeesOwnView(s2, u, name);
    BudgetStatusSeesOwnView(s1, u);
    BudgetStatusSeesOwnView(s2, u);
    TopExpensesSeesOwnView(s1, u, now, limit);
    TopExpensesSeesOwnView(s2, u, now, limit);
  }

  // ---------------------------------------------------------------------
  // (3) The transitions keep the store well-formed

  lemma CreateExpenseKeepsWellFormed(s: Store, owner: UserId, data: ExpenseCreate, now: DateTime)
    requires WellFormed(s)
    ensures WellFormed(After(s, CreateExpense(s, owner, data, now)))
  {
    var r := CreateExpense(s, owner, data, now);
    if r.Ok? {
      var s' := r.value.store;
      var e := r.value.response;
      var c := FindFirst(s.categories, (c: Category) => c.id == data.categoryId && c.userId == owner).value;
      assert forall x :: x in s'.expenses ==> x in s.expenses || x == e;
      assert c in s'.categories && c.id == e.categoryId.value && c.userId == e.userId;
    }
  }

  lemma DeleteExpenseKeepsWellFormed(s: Store, owner: UserId, id: Id)
    requires WellFormed(s)
    ensures WellFormed(After(s, DeleteExpense(s, owner, id)))
  {
    var r := DeleteExpense(s, owner, id);
    if r.Ok? {
      var gone := GetExpense(s, owner, id).value;
      assert r.value.store.expenses == Remove(s.expenses, gone);
    }
  }

  lemma CreateCategoryKeepsWellFormed(s: Store, owner: UserId, name: string)
    requires WellFormed(s)
    ensures WellFormed(After(s, CreateCategory(s, owner, name)))
  {
    var r := CreateCategory(s, owner, name);
    if r.Ok? {
      var s' := r.value.store;
      var c := Category(r.value.response.id, owner, name);
      assert forall x :: x in s'.categories ==> x in s.categories || x == c;
      assert forall x :: x in s.categories ==> x in s'.categories;
    }
  }

  /** Each row after SET NULL is an original row with the reference cleared. */
  lemma ClearedRowsComeFromRows(es: seq<Expense>, id: Id)
    ensures forall e' :: e' in ClearCategory(es, id) ==> exists e :: e in es && e' == Unlinked(e, id)
  {
    var cleared := ClearCategory(es, id);
    forall e' | e' in cleared ensures exists e :: e in es && e' == Unlinked(e, id) {
      var i :| 0 <= i < |cleared| && cleared[i] == e';
      assert es[i] in es;
    }
  }

  /** SET NULL keeps expense ids unique. */
  lemma ClearKeepsUniqueIds(es: seq<Expense>, id: Id)
    requires forall a, b :: a in es && b in es && a.id == b.id ==> a == b
    ensures var cleared := ClearCategory(es, id);
      forall a, b :: a in cleared && b in cleared && a.id == b.id ==> a == b
  {
    ClearedRowsComeFromRows(es, id);
  }

  /** After the deletion, every remaining reference still points at a
      remaining category of the same owner. */
  lemma DeleteCategoryKeepsScoping(s: Store, owner: UserId, id: Id, gone: Category)
    requires WellFormed(s)
    requires gone in s.categories && gone.id == id
    ensures var s' := Store(Remove(s.categories, gone), ClearCategory(s.expenses, id),
                            Filter(s.budgets, (b: Budget) => b.categoryId != id));
      ExpensesScoped(s') && BudgetsScoped(s')
  {
    var s' := Store(Remove(s.categories, gone), ClearCategory(s.expenses, id),
                    Filter(s.budgets, (b: Budget) => b.categoryId != id));
    ClearedRowsComeFromRows(s.expenses, id);
    forall e' | e' in s'.expenses && e'.categoryId.Some?
      ensures exists c :: c in s'.categories && c.id == e'.categoryId.value && c.userId == e'.userId
    {
      var e :| e in s.expenses && e' == Unlinked(e, id);
      var c :| c in s.categories && c.id == e.categoryId.value && c.userId == e.userId;
      assert c in s'.categories;
    }
    forall x | x in s'.budgets
      ensures exists c :: c in s'.categories && c.id == x.categoryId && c.userId == x.userId
    {
      var c :| c in s.categories && c.id == x.categoryId && c.userId == x.userId;
      assert c in s'.categories;
    }
  }

  lemma DeleteCategoryKeepsWellFormed(s: Store, owner: UserId, id: Id)
    requires WellFormed(s)
    ensures WellFormed(After(s, DeleteCategory(s, owner, id)))
  {
    var r := DeleteCategory(s, owner, id);
    if r.Ok? {
      var gone := FindFirst(s.categories, (c: Category) => c.id == id && c.userId == owner).value;
      assert r.value.store == Store(Remove(s.categories, gone), ClearCategory(s.expenses, id),
                                    Filter(s.budgets, (b: Budget) => b.categoryId != id));
      ClearKeepsUniqueIds(s.expenses, id);
      DeleteCategoryKeepsScoping(s, owner, id, gone);
    }
  }

  /** The category deletion as written keeps the store well-formed too: when
      it commits, no budget refers to the category and it coincides with the
      declared deletion. */
  lemma DeleteCategoryAsWrittenKeepsWellFormed(s: Store, owner: UserId, id: Id)
    requires WellFormed(s)
    ensures WellFormed(After(s, DeleteCategoryAsWritten(s, owner, id)))
  {
    if DeleteCategoryAsWritten(s, owner, id).Ok? {
      DeletesAgreeWithoutBudget(s, owner, id);
      DeleteCategoryKeepsWellFormed(s, owner, id);
    }
  }

  /** The invariant holds from the start: the empty database is well-formed. */
  lemma EmptyStoreWellFormed()
    ensures WellFormed(Store([], [], []))
  {
  }
}

=== FILE: ledger.dfy ===
/** The finance tracker's ledger as immutable data: the three owner-scoped
    tables (categories, expenses, budgets), the routes' HTTP 400 cases plus
    the database failure `NotNullViolation`, and the owner-filtered reads every operation is built from.

    Row ids are naturals; a UUID primary key is modelled by the fact that a
    fresh id is used by no existing row. Amounts are `real` (the tables store
    floats; rounding is not modelled). */
module Ledger {
  import opened Sequences

  type Id = nat
  type UserId = nat

  /** A timestamp. Only its calendar month and year matter to the queries. */
  datatype DateTime = DateTime(year: int, month: int, day: int, secondOfDay: nat)

  /** A calendar month: the "current month" of the month-scoped query. */
  datatype YearMonth = YearMonth(year: int, month: int)

  datatype Category = Category(id: Id, userId: UserId, name: string)

  /** An expense; `categoryId` is nullable and is cleared when its category is deleted. */
  datatype Expense = Expense(
    id: Id,
    userId: UserId,
    categoryId: Option<Id>,
    amount: real,
    date: DateTime,
    note: Option<string>)

  /** A budget: one per category, with a limit the reports call monthly. */
  datatype Budget = Budget(id: Id, userId: UserId, categoryId: Id, monthlyLimit: real)

  datatype Store = Store(categories: seq<Category>, expenses: seq<Expense>, budgets: seq<Budget>)

  /** The routes' failures: the HTTP 400 cases, each with its own detail
      text, plus the database failure `NotNullViolation`, which the route
      does not catch. */
  datatype Error =
    | CategoryNotFound        // create_expense: the category is not one of the caller's
    | ExpenseNotFound         // get_expense_by_id
    | ExpenseDoesNotExist     // delete_expense
    | DuplicateCategoryName   // create_category
    | UnknownCategoryId(id: Id) // delete_category
    | NotNullViolation        // delete_category: the ORM writes NULL into a NOT NULL key

  datatype Result<T> = Ok(value: T) | Err(error: Error)

  /** A committed transition: the store after the write and the route's response. */
  datatype Committed<T> = Committed(store: Store, response: T)

  /** The store a transition leaves behind: the new one on success, the old one on error. */
  function After<T>(s: Store, r: Result<Committed<T>>): Store
  {
    if r.Ok? then r.value.store else s
  }

  // ---------------------------------------------------------------------
  // Case-insensitive names

  function LowerChar(c: char): char
  {
    if 'A' <= c <= 'Z' then (c as int + 32) as char else c
  }

  /** `str.lower()` / SQL `lower()` on the ASCII letters. */
  function Lower(s: string): (r: string)
    ensures |r| == |s|
  {
    seq(|s|, i requires 0 <= i < |s| => LowerChar(s[i]))
  }

  predicate SameIgnoringCase(a: string, b: string)
  {
    Lower(a) == Lower(b)
  }

  // ---------------------------------------------------------------------
  // Owner-scoped reads (`WHERE user_id = :owner`)

  function OwnedCategories(cs: seq<Category>, owner: UserId): seq<Category>
  {
    Filter(cs, (c: Category) => c.userId == owner)
  }

  function OwnedExpenses(es: seq<Expense>, owner: UserId): seq<Expense>
  {
    Filter(es, (e: Expense) => e.userId == owner)
  }

  function OwnedBudgets(bs: seq<Budget>, owner: UserId): seq<Budget>
  {
    Filter(bs, (b: Budget) => b.userId == owner)
  }

  /** The caller's first category whose name equals `name` ignoring case
      (`lower(name) = lower(:name) AND user_id = :owner`, then `.first()`). */
  function FindCategoryByName(s: Store, owner: UserId, name: string): (r: Option<Category>)
    ensures r.None? <==> forall c :: c in s.categories && c.userId == owner ==> !SameIgnoringCase(c.name, name)
    ensures r.Some? ==> r.value in s.categories && r.value.userId == owner && SameIgnoringCase(r.value.name, name)
  {
    FindFirst(OwnedCategories(s.categories, owner), (c: Category) => SameIgnoringCase(c.name, name))
  }

  /** `session.get(Category, id)`: a primary-key lookup that is not owner-scoped. */
  function CategoryById(s: Store, id: Id): (r: Option<Category>)
    ensures r.None? <==> forall c :: c in s.categories ==> c.id != id
    ensures r.Some? ==> r.value in s.categories && r.value.id == id
  {
    FindFirst(s.categories, (c: Category) => c.id == id)
  }

  // ---------------------------------------------------------------------
  // Sums (`SELECT sum(amount)`, with `total or 0.0` for the empty sum)

  function Total(es: seq<Expense>): real
  {
    if es == [] then 0.0 else es[0].amount + Total(es[1..])
  }

  /** The caller's expenses whose category is `categoryId` (`None` is SQL's IS NULL). */
  function ExpensesIn(s: Store, owner: UserId, categoryId: Option<Id>): (r: seq<Expense>)
    ensures forall e :: e in r <==> e in s.expenses && e.userId == owner && e.categoryId == categoryId
  {
    Filter(OwnedExpenses(s.expenses, owner), (e: Expense) => e.categoryId == categoryId)
  }

  /** The selection lists each row of the table at most as often as it occurs. */
  lemma ExpensesInSubMultiset(s: Store, owner: UserId, categoryId: Option<Id>)
    ensures multiset(ExpensesIn(s, owner, categoryId)) <= multiset(s.expenses)
  {
    FilterSubMultiset(OwnedExpenses(s.expenses, owner), (e: Expense) => e.categoryId == categoryId);
    FilterSubMultiset(s.expenses, (e: Expense) => e.userId == owner);
  }

  /** All-time spend of `owner` in a category. */
  function Spent(s: Store, owner: UserId, categoryId: Option<Id>): real
  {
    Total(ExpensesIn(s, owner, categoryId))
  }

  /** Reference definition of a category's spend: one pass over the table,
      adding the amount of each row of `owner` in `categoryId`. */
  function SumIn(es: seq<Expense>, owner: UserId, categoryId: Option<Id>): real
  {
    if es == [] then 0.0
    else (if es[0].userId == owner && es[0].categoryId == categoryId then es[0].amount else 0.0)
         + SumIn(es[1..], owner, categoryId)
  }

  lemma {:induction false} SumInAppend(a: seq<Expense>, b: seq<Expense>, owner: UserId, categoryId: Option<Id>)
    ensures SumIn(a + b, owner, categoryId) == SumIn(a, owner, categoryId) + SumIn(b, owner, categoryId)
  {
    if a == [] {
      assert a + b == b;
    } else {
      assert (a + b)[1..] == a[1..] + b;
      SumInAppend(a[1..], b, owner, categoryId);
    }
  }

  /** The filtered sum the queries compute equals the one-pass reference sum. */
  lemma SpentIsSumIn(s: Store, owner: UserId, categoryId: Option<Id>)
    ensures Spent(s, owner, categoryId) == SumIn(s.expenses, owner, categoryId)
  {
    FilteredTotalIsSumIn(s.expenses, owner, categoryId);
  }

  lemma {:induction false} FilteredTotalIsSumIn(es: seq<Expense>, owner: UserId, categoryId: Option<Id>)
    ensures Total(Filter(OwnedExpenses(es, owner), (e: Expense) => e.categoryId == categoryId))
         == SumIn(es, owner, categoryId)
  {
    if es != [] {
      var p := (e: Expense) => e.categoryId == categoryId;
      var x := es[0];
      FilteredTotalIsSumIn(es[1..], owner, categoryId);
      var tail := OwnedExpenses(es[1..], owner);
      if x.userId == owner {
        assert OwnedExpenses(es, owner) == [x] + tail;
        if x.categoryId == categoryId {
          assert Filter([x] + tail, p) == [x] + Filter(tail, p);
        } else {
          assert Filter([x] + tail, p) == Filter(tail, p);
        }
      } else {
        assert OwnedExpenses(es, owner) == tail;
      }
    }
  }

  /** With no matching expense the sum is 0.0, as `total or 0.0` makes it. */
  lemma {:induction false} SpentWithoutExpenses(s: Store, owner: UserId, categoryId: Option<Id>)
    requires forall e :: e in s.expenses ==> e.userId != owner || e.categoryId != categoryId
    ensures Spent(s, owner, categoryId) == 0.0
  {
    FilterKeepsNone(OwnedExpenses(s.expenses, owner), (e: Expense) => e.categoryId == categoryId);
  }

  // ---------------------------------------------------------------------
  // Fresh primary keys

  function MaxCategoryId(cs: seq<Category>): (m: nat)
    ensures forall c :: c in cs ==> c.id <= m
  {
    if cs == [] then 0
    else
      var rest := MaxCategoryId(cs[1..]);
      assert forall c :: c in cs ==> c == cs[0] || c in cs[1..];
      if cs[0].id > rest then cs[0].id else rest
  }

  function MaxExpenseId(es: seq<Expense>): (m: nat)
    ensures forall e :: e in es ==> e.id <= m
  {
    if es == [] then 0
    else
      var rest := MaxExpenseId(es[1..]);
      assert forall e :: e in es ==> e == es[0] || e in es[1..];
      if es[0].id > rest then es[0].id else rest
  }

  /** A category id no existing category uses, standing for `uuid4()`. */
  function FreshCategoryId(s: Store): (id: Id)
    ensures forall c :: c in s.categories ==> c.id != id
  {
    MaxCategoryId(s.categories) + 1
  }

  /** An expense id no existing expense uses, standing for `uuid4()`. */
  function FreshExpenseId(s: Store): (id: Id)
    ensures forall e :: e in s.expenses ==> e.id != id
  {
    MaxExpenseId(s.expenses) + 1
  }

  // ---------------------------------------------------------------------
  // Database integrity the routes maintain

  /** Primary keys are unique in each table: rows that share an id are the same row. */
  predicate UniqueIds(s: Store)
  {
    && (forall a, b :: a in s.categories && b in s.categories && a.id == b.id ==> a == b)
    && (forall a, b :: a in s.expenses && b in s.expenses && a.id == b.id ==> a == b)
    && (forall a, b :: a in s.budgets && b in s.budgets && a.id == b.id ==> a == b)
  }

  /** `budget.category_id` is declared unique: one budget per category. */
  predicate OneBudgetPerCategory(s: Store)
  {
    forall a, b :: a in s.budgets && b in s.budgets && a.categoryId == b.categoryId ==> a == b
  }

  /** An expense's category, when set, is a category of the expense's owner. */
  predicate ExpensesScoped(s: Store)
  {
    forall e :: e in s.expenses && e.categoryId.Some? ==>
      exists c :: c in s.categories && c.id == e.categoryId.value && c.userId == e.userId
  }

  /** A budget's category exists (foreign key) and belongs to the budget's owner. */
  predicate BudgetsScoped(s: Store)
  {
    forall b :: b in s.budgets ==>
      exists c :: c in s.categories && c.id == b.categoryId && c.userId == b.userId
  }

  predicate WellFormed(s: Store)
  {
    UniqueIds(s) && OneBudgetPerCategory(s) && ExpensesScoped(s) && BudgetsScoped(s)
  }
}

=== FILE: ranking.dfy ===
/** `ORDER BY amount DESC LIMIT n` over expenses. The database leaves the
    order of equal amounts unspecified; this model fixes it as a stable
    insertion sort, so equal amounts keep their store order. */
module Ranking {
  import opened Ledger

  predicate NonIncreasing(s: seq<Expense>)
  {
    forall i, j :: 0 <= i < j < |s| ==> s[i].amount >= s[j].amount
  }

  /** Places `e` before the first element it is not smaller than. */
  function Insert(e: Expense, s: seq<Expense>): (r: seq<Expense>)
    requires NonIncreasing(s)
    ensures NonIncreasing(r)
    ensures multiset(r) == multiset(s) + multiset{e}
  {
    if s == [] then [e]
    else if e.amount >= s[0].amount then [e] + s
    else
      var rest := Insert(e, s[1..]);
      assert s == [s[0]] + s[1..];
      HeadStaysFirst(s[0], s[1..], e, rest);
      [s[0]] + rest
  }

  /** A head at least as large as everything behind it, and as the newly
      inserted element, stays in front. */
  lemma HeadStaysFirst(h: Expense, tail: seq<Expense>, e: Expense, rest: seq<Expense>)
    requires NonIncreasing([h] + tail) && NonIncreasing(rest)
    requires multiset(rest) == multiset(tail) + multiset{e}
    requires e.amount < h.amount
    ensures NonIncreasing([h] + rest)
  {
    forall j | 0 <= j < |rest| ensures h.amount >= rest[j].amount {
      assert rest[j] in multiset(rest);
      if rest[j] != e {
        assert rest[j] in tail;
        var k :| 0 <= k < |tail| && tail[k] == rest[j];
        assert ([h] + tail)[0] == h && ([h] + tail)[k + 1] == rest[j];
      }
    }
    var r := [h] + rest;
    forall i, j | 0 <= i < j < |r| ensures r[i].amount >= r[j].amount {
      if i > 0 {
        assert r[i] == rest[i - 1] && r[j] == rest[j - 1];
      } else {
        assert r[j] == rest[j - 1];
      }
    }
  }

  /** The expenses of `s` from the largest amount to the smallest. */
  function SortByAmountDesc(s: seq<Expense>): (r: seq<Expense>)
    ensures NonIncreasing(r)
    ensures multiset(r) == multiset(s)
  {
    if s == [] then []
    else
      assert s == [s[0]] + s[1..];
      Insert(s[0], SortByAmountDesc(s[1..]))
  }

  /** In a non-increasing sequence, every element of the first `k` is at
      least as large as every element left out. */
  lemma PrefixDominates(s: seq<Expense>, k: nat)
    requires NonIncreasing(s)
    requires k <= |s|
    ensures forall x, y :: x in s[k..] && y in s[..k] ==> x.amount <= y.amount
  {
    forall x, y | x in s[k..] && y in s[..k] ensures x.amount <= y.amount {
      var i :| 0 <= i < |s[k..]| && s[k..][i] == x;
      var j :| 0 <= j < |s[..k]| && s[..k][j] == y;
      assert s[j] == y && s[k + i] == x;
    }
  }

  /** The first `limit` elements of the ranking, the whole ranking when shorter. */
  function Take(s: seq<Expense>, limit: nat): (r: seq<Expense>)
    ensures |r| == if |s| <= limit then |s| else limit
    ensures r == s[..|r|]
  {
    if |s| <= limit then s else s[..limit]
  }

  /** The `limit` largest expenses of `s`: as many as the limit allows, in
      non-increasing order, drawn from `s`, and none smaller than anything
      of `s` that was left out. */
  function Largest(s: seq<Expense>, limit: nat): (top: seq<Expense>)
    ensures |top| == if |s| <= limit then |s| else limit
    ensures NonIncreasing(top)
    ensures multiset(top) <= multiset(s)
    ensures forall x, y :: x in multiset(s) - multiset(top) && y in top ==> x.amount <= y.amount
  {
    var sorted := SortByAmountDesc(s);
    var top := Take(sorted, limit);
    var k := |top|;
    assert sorted == top + sorted[k..];
    assert multiset(s) == multiset(top) + multiset(sorted[k..]);
    PrefixDominates(sorted, k);
    assert forall x :: x in multiset(s) - multiset(top) ==> x in sorted[k..];
    top
  }
}

=== FILE: sequences.dfy ===
/** Option and the order-preserving sequence operations the ledger queries are
    built from: a table scan with a WHERE clause is a `Filter`, and a query
    ending in `.first()` is a `FindFirst`. */
module Sequences {

  datatype Option<+T> = None | Some(value: T)

  /** The elements of `s` satisfying `p`, in their original order. */
  function Filter<T(==,!new)>(s: seq<T>, p: T -> bool): (r: seq<T>)
    ensures |r| <= |s|
    ensures forall x :: x in r <==> x in s && p(x)
  {
    if s == [] then []
    else
      assert s == [s[0]] + s[1..];
      if p(s[0]) then [s[0]] + Filter(s[1..], p) else Filter(s[1..], p)
  }

  /** A filter keeps each element at most as often as it occurs. */
  lemma {:induction false} FilterSubMultiset<T(!new)>(s: seq<T>, p: T -> bool)
    ensures multiset(Filter(s, p)) <= multiset(s)
  {
    if s != [] {
      assert s == [s[0]] + s[1..];
      FilterSubMultiset(s[1..], p);
    }
  }

  /** `s` without any occurrence of `v`. */
  function Remove<T(==,!new)>(s: seq<T>, v: T): (r: seq<T>)
    ensures forall x :: x in r <==> x in s && x != v
    ensures multiset(r) == multiset(s)[v := 0]
  {
    RemoveMultiset(s, v);
    Filter(s, (x: T) => x != v)
  }

  lemma {:induction false} RemoveMultiset<T(!new)>(s: seq<T>, v: T)
    ensures multiset(Filter(s, (x: T) => x != v)) == multiset(s)[v := 0]
  {
    if s != [] {
      assert s == [s[0]] + s[1..];
      RemoveMultiset(s[1..], v);
    }
  }

  /** Removing a value a filter would drop anyway does not change the filter. */
  lemma RemoveThenFilter<T(!new)>(s: seq<T>, v: T, q: T -> bool)
    requires !q(v)
    ensures Filter(Remove(s, v), q) == Filter(s, q)
  {
    FilterFilter(s, (x: T) => x != v, q);
  }

  /** Removing what was just appended, and was not there before, gives back the original. */
  lemma RemoveAppended<T(!new)>(s: seq<T>, v: T)
    requires v !in s
    ensures Remove(s + [v], v) == s
  {
    FilterAppend(s, [v], (x: T) => x != v);
    FilterKeepsAll(s, (x: T) => x != v);
  }

  /** The first element of `s` satisfying `p`, if there is one. */
  function FindFirst<T(==,!new)>(s: seq<T>, p: T -> bool): (r: Option<T>)
    ensures r.None? <==> forall x :: x in s ==> !p(x)
    ensures r.Some? ==> r.value in s && p(r.value)
    ensures r.Some? ==> exists i :: 0 <= i < |s| && s[i] == r.value && forall j :: 0 <= j < i ==> !p(s[j])
  {
    if s == [] then None
    else if p(s[0]) then Some(s[0])
    else
      var r := FindFirst(s[1..], p);
      assert r.Some? ==> exists i :: 0 <= i < |s| && s[i] == r.value && forall j :: 0 <= j < i ==> !p(s[j]) by {
        if r.Some? {
          var i :| 0 <= i < |s[1..]| && s[1..][i] == r.value && forall j :: 0 <= j < i ==> !p(s[1..][j]);
          assert s[i + 1] == r.value;
          forall j | 0 <= j < i + 1 ensures !p(s[j]) {
            if j > 0 { assert s[j] == s[1..][j - 1]; }
          }
        }
      }
      r
  }

  lemma {:induction false} FilterAppend<T(!new)>(a: seq<T>, b: seq<T>, p: T -> bool)
    ensures Filter(a + b, p) == Filter(a, p) + Filter(b, p)
  {
    if a == [] {
      assert a + b == b;
    } else {
      assert (a + b)[1..] == a[1..] + b;
      FilterAppend(a[1..], b, p);
    }
  }

  /** Filtering again by a condition implied by the first filter changes nothing. */
  lemma {:induction false} FilterFilter<T(!new)>(s: seq<T>, p: T -> bool, q: T -> bool)
    requires forall x :: x in s && q(x) ==> p(x)
    ensures Filter(Filter(s, p), q) == Filter(s, q)
  {
    if s != [] {
      assert s[0] in s;
      assert forall x :: x in s[1..] ==> x in s;
      FilterFilter(s[1..], p, q);
    }
  }

  /** Searching a filtered sequence for something the filter keeps finds
      what searching the whole sequence finds. */
  lemma {:induction false} FindFirstFilter<T(!new)>(s: seq<T>, p: T -> bool, q: T -> bool)
    requires forall x :: p(x) ==> q(x)
    ensures FindFirst(Filter(s, q), p) == FindFirst(s, p)
  {
    if s != [] {
      FindFirstFilter(s[1..], p, q);
    }
  }

  /** Filtering by a condition every element meets is the identity. */
  lemma {:induction false} FilterKeepsAll<T(!new)>(s: seq<T>, p: T -> bool)
    requires forall x :: x in s ==> p(x)
    ensures Filter(s, p) == s
  {
    if s != [] {
      assert s == [s[0]] + s[1..];
      FilterKeepsAll(s[1..], p);
    }
  }

  /** Filtering by a condition no element meets leaves nothing. */
  lemma {:induction false} FilterKeepsNone<T(!new)>(s: seq<T>, p: T -> bool)
    requires forall x :: x in s ==> !p(x)
    ensures Filter(s, p) == []
  {
    if s != [] {
      assert s[0] in s;
      FilterKeepsNone(s[1..], p);
    }
  }

  /** Three conditions that split every element into exactly one class split
      `s` into three filters whose sizes and contents add back up to `s`. */
  lemma {:induction false} FilterPartition<T(!new)>(s: seq<T>, p: T -> bool, q: T -> bool, r: T -> bool)
    requires forall x :: (p(x) || q(x) || r(x)) && !(p(x) && q(x)) && !(p(x) && r(x)) && !(q(x) && r(x))
    ensures |Filter(s, p)| + |Filter(s, q)| + |Filter(s, r)| == |s|
    ensures multiset(Filter(s, p)) + multiset(Filter(s, q)) + multiset(Filter(s, r)) == multiset(s)
  {
    if s != [] {
      assert s == [s[0]] + s[1..];
      FilterPartition(s[1..], p, q, r);
    }
  }
}

=== FILE: tools.dfy ===
/** The assistant's three read-only tools over the caller's ledger: the
    all-time spending summary of a category, the budget health report, and
    the month's largest expenses. The request context (the authenticated
    user and the database session) is the pair of parameters `s` and
    `owner`; "now" is a parameter. Results are the structure of the text the
    tools render; the currency and percent formatting is not modelled. */
module Tools {
  import opened Sequences
  import opened Ledger
  import opened Ranking

  // ---------------------------------------------------------------------
  // get_spending_summary

  datatype Summary =
    | NoCategoryNamed(query: string)              // "No category found with the name '...'."
    | TotalSpent(categoryName: string, total: real) // "Total spending in '<name>': $<total>"

  /** The caller's all-time spend in the category named `categoryName`,
      matched ignoring case among the caller's own categories. */
  function SpendingSummary(s: Store, owner: UserId, categoryName: string): (r: Summary)
    ensures r.NoCategoryNamed? <==>
      forall c :: c in s.categories && c.userId == owner ==> !SameIgnoringCase(c.name, categoryName)
    ensures r.NoCategoryNamed? ==> r.query == categoryName
    ensures r.TotalSpent? ==>
      exists c :: c in s.categories && c.userId == owner && SameIgnoringCase(c.name, categoryName)
        && r.categoryName == c.name && r.total == Spent(s, owner, Some(c.id))
  {
    match FindCategoryByName(s, owner, categoryName)
    case None => NoCategoryNamed(categoryName)
    case Some(c) => TotalSpent(c.name, Spent(s, owner, Some(c.id)))
  }

  // ---------------------------------------------------------------------
  // get_budget_status

  /** The three sections of the report, in the order they are listed. */
  datatype Bucket = Over | Approaching | Within

  function Rank(b: Bucket): nat
  {
    match b
    case Over => 0
    case Approaching => 1
    case Within => 2
  }

  /** The name a budget line shows: the category's name, or the raw category
      id when no category with that id exists. */
  datatype CategoryLabel = Named(name: string) | RawId(id: Id)

  /** One line of the report. `figure` is the overage for an Over line and
      the remaining amount otherwise. */
  datatype BudgetLine = BudgetLine(
    category: CategoryLabel,
    spent: real,
    limit: real,
    pct: real,
    bucket: Bucket,
    figure: real)

  datatype Section = Section(bucket: Bucket, lines: seq<BudgetLine>)

  datatype BudgetReport =
    | NoBudgets                        // "You have no budgets set. ..."
    | Report(sections: seq<Section>)

  const ApproachingPct: real := 80.0

  /** `spent / limit * 100` when the limit is positive, 0 otherwise. */
  function Percent(spent: real, limit: real): real
  {
    if limit > 0.0 then spent / limit * 100.0 else 0.0
  }

  /** The percentage is spend per hundred of a positive limit, and 0 for any
      other limit. */
  lemma PercentScales(spent: real, limit: real)
    ensures limit > 0.0 ==> Percent(spent, limit) * limit == spent * 100.0
    ensures limit <= 0.0 ==> Percent(spent, limit) == 0.0
  {
  }

  /** First match wins: over the limit, else at 80% or more, else within. */
  function Classify(spent: real, limit: real): (b: Bucket)
    ensures b == Over <==> spent > limit
    ensures b == Approaching <==> limit > 0.0 && spent <= limit && spent * 5.0 >= limit * 4.0
    ensures b == Within <==> spent <= limit && (limit <= 0.0 || spent * 5.0 < limit * 4.0)
  {
    if spent > limit then Over
    else if Percent(spent, limit) >= ApproachingPct then
      PercentThreshold(spent, limit);
      Approaching
    else
      PercentThreshold(spent, limit);
      Within
  }

  /** For a positive limit, reaching 80% means spending at least 4/5 of it. */
  lemma PercentThreshold(spent: real, limit: real)
    ensures Percent(spent, limit) >= ApproachingPct <==> limit > 0.0 && spent * 5.0 >= limit * 4.0
  {
    PercentScales(spent, limit);
    if limit > 0.0 {
      var pct := Percent(spent, limit);
      assert pct * limit == spent * 100.0;
      if pct >= 80.0 {
        assert pct * limit >= 80.0 * limit;
      } else {
        assert pct * limit < 80.0 * limit;
      }
    }
  }

  /** The 80 % rule at a limit of 100 (and once at 200): just above the
      limit is over, the limit itself and 80 are approaching, just below 80
      is within. */
  lemma ClassifyAtLimit100()
    ensures Classify(100.01, 100.0) == Over
    ensures Classify(100.0, 100.0) == Approaching
    ensures Classify(80.0, 100.0) == Approaching
    ensures Classify(79.99, 100.0) == Within
    ensures Classify(150.0, 200.0) == Within
  {
  }

  function LabelOf(s: Store, b: Budget): (l: CategoryLabel)
    ensures l.RawId? <==> forall c :: c in s.categories ==> c.id != b.categoryId
    ensures l.RawId? ==> l.id == b.categoryId
    ensures l.Named? ==> exists c :: c in s.categories && c.id == b.categoryId && c.name == l.name
  {
    match CategoryById(s, b.categoryId)
    case Some(c) => Named(c.name)
    case None => RawId(b.categoryId)
  }

  /** One budget's line: all-time spend of the caller in the budget's
      category against the budget's limit. The figure shown is a positive
      overage when over, and otherwise a non-negative remainder that is at
      most a fifth of the limit when approaching. */
  function EvaluateBudget(s: Store, owner: UserId, b: Budget): (line: BudgetLine)
    ensures line.category == LabelOf(s, b)
    ensures line.spent == Spent(s, owner, Some(b.categoryId)) && line.limit == b.monthlyLimit
    ensures line.bucket == Classify(line.spent, line.limit)
    ensures line.pct == Percent(line.spent, line.limit)
    ensures line.bucket == Over ==> line.figure == line.spent - line.limit && line.figure > 0.0
    ensures line.bucket != Over ==> line.figure == line.limit - line.spent && line.figure >= 0.0
    ensures line.bucket == Approaching ==> line.figure * 5.0 <= line.limit
  {
    var spent := Spent(s, owner, Some(b.categoryId));
    var limit := b.monthlyLimit;
    var remaining := limit - spent;
    var bucket := Classify(spent, limit);
    BudgetLine(LabelOf(s, b), spent, limit, Percent(spent, limit), bucket,
               if bucket == Over then -remaining else remaining)
  }

  function EvaluateAll(s: Store, owner: UserId, bs: seq<Budget>): (lines: seq<BudgetLine>)
    ensures |lines| == |bs|
    ensures forall i :: 0 <= i < |bs| ==> lines[i] == EvaluateBudget(s, owner, bs[i])
  {
    seq(|bs|, i requires 0 <= i < |bs| => EvaluateBudget(s, owner, bs[i]))
  }

  function InBucket(lines: seq<BudgetLine>, k: Bucket): seq<BudgetLine>
  {
    Filter(lines, (l: BudgetLine) => l.bucket == k)
  }

  /** A section for a non-empty bucket, nothing for an empty one. */
  function SectionIf(k: Bucket, lines: seq<BudgetLine>): seq<Section>
  {
    if lines == [] then [] else [Section(k, lines)]
  }

  /** The sections in the fixed order Over, Approaching, Within, each kept
      only when it has a line. */
  function Assemble(lines: seq<BudgetLine>): seq<Section>
  {
    Sections3(InBucket(lines, Over), InBucket(lines, Approaching), InBucket(lines, Within))
  }

  function Sections3(over: seq<BudgetLine>, approaching: seq<BudgetLine>, within: seq<BudgetLine>): seq<Section>
  {
    SectionIf(Over, over) + SectionIf(Approaching, approaching) + SectionIf(Within, within)
  }

  function LineCount(sections: seq<Section>): nat
  {
    if sections == [] then 0 else |sections[0].lines| + LineCount(sections[1..])
  }

  lemma {:induction false} LineCountAppend(a: seq<Section>, b: seq<Section>)
    ensures LineCount(a + b) == LineCount(a) + LineCount(b)
  {
    if a == [] {
      assert a + b == b;
    } else {
      assert (a + b)[1..] == a[1..] + b;
      LineCountAppend(a[1..], b);
    }
  }

  /** The report over the caller's budgets, in the order they are stored. */
  function BudgetStatus(s: Store, owner: UserId): (r: BudgetReport)
    ensures r.NoBudgets? <==> forall b :: b in s.budgets ==> b.userId != owner
  {
    var budgets := OwnedBudgets(s.budgets, owner);
    if budgets == [] then
      assert forall b :: b in s.budgets ==> b.userId != owner;
      NoBudgets
    else
      assert budgets[0] in s.budgets;
      Report(Assemble(EvaluateAll(s, owner, budgets)))
  }

  /** Appending a line adds it to its own bucket and to no other. */
  lemma InBucketAppend(lines: seq<BudgetLine>, line: BudgetLine, k: Bucket)
    ensures InBucket(lines + [line], k) == InBucket(lines, k) + (if line.bucket == k then [line] else [])
  {
    FilterAppend(lines, [line], (l: BudgetLine) => l.bucket == k);
  }

  /** Three bucket lists make sections in strictly increasing bucket order,
      none of them empty, each labelled with the bucket it came from. */
  lemma Sections3Ordered(o: seq<BudgetLine>, a: seq<BudgetLine>, w: seq<BudgetLine>)
    ensures var sections := Sections3(o, a, w);
      && (forall i, j :: 0 <= i < j < |sections| ==> Rank(sections[i].bucket) < Rank(sections[j].bucket))
      && (forall i :: 0 <= i < |sections| ==> sections[i].lines != [])
      && (forall i :: 0 <= i < |sections| ==>
            sections[i].lines == match sections[i].bucket case Over => o case Approaching => a case Within => w)
      && (o != [] <==> exists i :: 0 <= i < |sections| && sections[i].bucket == Over)
      && (a != [] <==> exists i :: 0 <= i < |sections| && sections[i].bucket == Approaching)
      && (w != [] <==> exists i :: 0 <= i < |sections| && sections[i].bucket == Within)
  {
    var so, sa, sw := SectionIf(Over, o), SectionIf(Approaching, a), SectionIf(Within, w);
    var sections := Sections3(o, a, w);
    assert sections == so + sa + sw;
    if o != [] { assert sections[0].bucket == Over; }
    if a != [] { assert sections[|so|].bucket == Approaching; }
    if w != [] { assert sections[|so| + |sa|].bucket == Within; }
  }

  /** The sections come in strictly increasing bucket order, none is empty,
      each holds exactly its bucket's lines in their original order (so
      every line sits in the section of its own bucket), and a bucket has a
      section exactly when it has a line. */
  lemma AssembleShape(lines: seq<BudgetLine>)
    ensures var sections := Assemble(lines);
      && (forall i, j :: 0 <= i < j < |sections| ==> Rank(sections[i].bucket) < Rank(sections[j].bucket))
      && (forall i :: 0 <= i < |sections| ==> sections[i].lines != [])
      && (forall i :: 0 <= i < |sections| ==> sections[i].lines == InBucket(lines, sections[i].bucket))
      && (forall i, l :: 0 <= i < |sections| && l in sections[i].lines ==> l.bucket == sections[i].bucket)
      && (forall k :: (exists i :: 0 <= i < |sections| && sections[i].bucket == k) <==> InBucket(lines, k) != [])
  {
    var o, a, w := InBucket(lines, Over), InBucket(lines, Approaching), InBucket(lines, Within);
    Sections3Ordered(o, a, w);
    var sections := Assemble(lines);
    forall i | 0 <= i < |sections| ensures sections[i].lines == InBucket(lines, sections[i].bucket) {
      match sections[i].bucket
      case Over =>
      case Approaching =>
      case Within =>
    }
    forall k ensures (exists i :: 0 <= i < |sections| && sections[i].bucket == k) <==> InBucket(lines, k) != [] {
      match k
      case Over =>
      case Approaching =>
      case Within =>
    }
  }

  lemma LineCountSections3(o: seq<BudgetLine>, a: seq<BudgetLine>, w: seq<BudgetLine>)
    ensures LineCount(Sections3(o, a, w)) == |o| + |a| + |w|
  {
    var so, sa, sw := SectionIf(Over, o), SectionIf(Approaching, a), SectionIf(Within, w);
    LineCountAppend(so, sa);
    LineCountAppend(so + sa, sw);
    assert LineCount(so) == |o| && LineCount(sa) == |a| && LineCount(sw) == |w|;
  }

  /** Every line lands in exactly one section: the sections hold as many lines as were evaluated. */
  lemma AssembleCount(lines: seq<BudgetLine>)
    ensures LineCount(Assemble(lines)) == |lines|
  {
    FilterPartition(lines, (l: BudgetLine) => l.bucket == Over,
                    (l: BudgetLine) => l.bucket == Approaching,
                    (l: BudgetLine) => l.bucket == Within);
    LineCountSections3(InBucket(lines, Over), InBucket(lines, Approaching), InBucket(lines, Within));
  }

  /** The shape of the report: sections in strictly increasing bucket order,
      none empty, every line in the section of its own bucket, each bucket's
      lines in budget order, and one line per budget of the caller. */
  lemma BudgetReportShape(s: Store, owner: UserId)
    requires exists b :: b in s.budgets && b.userId == owner
    ensures BudgetStatus(s, owner).Report?
    ensures var sections := BudgetStatus(s, owner).sections;
      var lines := EvaluateAll(s, owner, OwnedBudgets(s.budgets, owner));
      && (forall i, j :: 0 <= i < j < |sections| ==> Rank(sections[i].bucket) < Rank(sections[j].bucket))
      && (forall i :: 0 <= i < |sections| ==> sections[i].lines != [])
      && (forall i, l :: 0 <= i < |sections| && l in sections[i].lines ==> l.bucket == sections[i].bucket)
      && (forall i :: 0 <= i < |sections| ==> sections[i].lines == InBucket(lines, sections[i].bucket))
      && (forall k :: (exists i :: 0 <= i < |sections| && sections[i].bucket == k) <==> InBucket(lines, k) != [])
      && LineCount(sections) == |OwnedBudgets(s.budgets, owner)|
  {
    var lines := EvaluateAll(s, owner, OwnedBudgets(s.budgets, owner));
    AssembleShape(lines);
    AssembleCount(lines);
  }

  /** `get_budget_status` with its `for budget in budgets` loop: the caller's budgets, the
      no-budgets message when there are none, otherwise the non-empty
      bucket lists in the order Over, Approaching, Within. */
  method BudgetStatusLoop(s: Store, owner: UserId) returns (r: BudgetReport)
    ensures r == BudgetStatus(s, owner)
  {
    var budgets := OwnedBudgets(s.budgets, owner);
    if |budgets| == 0 {
      return NoBudgets;
    }
    var over, approaching, ok := GroupByBucket(s, owner, budgets);
    var sections := [];
    if over != [] { sections := sections + [Section(Over, over)]; }
    assert sections == SectionIf(Over, over);
    if approaching != [] { sections := sections + [Section(Approaching, approaching)]; }
    assert sections == SectionIf(Over, over) + SectionIf(Approaching, approaching);
    if ok != [] { sections := sections + [Section(Within, ok)]; }
    assert sections == Sections3(over, approaching, ok);
    r := Report(sections);
  }

  /** The body of the `for budget in budgets` loop of `get_budget_status`
      for one budget: the spend, the
      remainder and the percentage, then the first bucket that applies. */
  method BudgetLineOf(s: Store, owner: UserId, b: Budget) returns (line: BudgetLine)
    ensures line == EvaluateBudget(s, owner, b)
  {
    var name := LabelOf(s, b);
    var spent := Spent(s, owner, Some(b.categoryId));
    var limit := b.monthlyLimit;
    var remaining := limit - spent;
    var pct := if limit > 0.0 then spent / limit * 100.0 else 0.0;
    if spent > limit {
      line := BudgetLine(name, spent, limit, pct, Over, if remaining < 0.0 then -remaining else remaining);
    } else if pct >= 80.0 {
      line := BudgetLine(name, spent, limit, pct, Approaching, remaining);
    } else {
      line := BudgetLine(name, spent, limit, pct, Within, remaining);
    }
  }

  /** One more line extends exactly the list of its own bucket. */
  lemma GroupStep(all: seq<BudgetLine>, i: nat)
    requires i < |all|
    ensures InBucket(all[..i + 1], Over) == InBucket(all[..i], Over) + (if all[i].bucket == Over then [all[i]] else [])
    ensures InBucket(all[..i + 1], Approaching) ==
      InBucket(all[..i], Approaching) + (if all[i].bucket == Approaching then [all[i]] else [])
    ensures InBucket(all[..i + 1], Within) == InBucket(all[..i], Within) + (if all[i].bucket == Within then [all[i]] else [])
  {
    assert all[..i + 1] == all[..i] + [all[i]];
    InBucketAppend(all[..i], all[i], Over);
    InBucketAppend(all[..i], all[i], Approaching);
    InBucketAppend(all[..i], all[i], Within);
  }

  /** The `for budget in budgets` loop of `get_budget_status`: one pass
      over the budgets that computes each line and appends it to the list of
      its bucket. */
  method GroupByBucket(s: Store, owner: UserId, budgets: seq<Budget>)
    returns (over: seq<BudgetLine>, approaching: seq<BudgetLine>, ok: seq<BudgetLine>)
    ensures over == InBucket(EvaluateAll(s, owner, budgets), Over)
    ensures approaching == InBucket(EvaluateAll(s, owner, budgets), Approaching)
    ensures ok == InBucket(EvaluateAll(s, owner, budgets), Within)
  {
    over, approaching, ok := [], [], [];
    ghost var all := EvaluateAll(s, owner, budgets);
    var i := 0;
    while i < |budgets|
      invariant 0 <= i <= |budgets|
      invariant over == InBucket(all[..i], Over)
      invariant approaching == InBucket(all[..i], Approaching)
      invariant ok == InBucket(all[..i], Within)
    {
      var line := BudgetLineOf(s, owner, budgets[i]);
      GroupStep(all, i);
      if line.bucket == Over {
        over := over + [line];
      } else if line.bucket == Approaching {
        approaching := approaching + [line];
      } else {
        ok := ok + [line];
      }
      i := i + 1;
    }
    assert all[..i] == all;
  }

  // ---------------------------------------------------------------------
  // get_top_expenses

  const DefaultTopLimit: nat := 5

  predicate InMonth(e: Expense, now: YearMonth)
  {
    e.date.month == now.month && e.date.year == now.year
  }

  /** The caller's expenses dated in the month and year of `now`. */
  function MonthExpenses(s: Store, owner: UserId, now: YearMonth): (r: seq<Expense>)
    ensures forall e :: e in r <==> e in s.expenses && e.userId == owner && InMonth(e, now)
  {
    Filter(OwnedExpenses(s.expenses, owner), (e: Expense) => InMonth(e, now))
  }

  /** The caller's `limit` largest expenses of the month, largest first. */
  function TopExpenses(s: Store, owner: UserId, now: YearMonth, limit: nat): (top: seq<Expense>)
    ensures var month := MonthExpenses(s, owner, now);
      |top| == if |month| <= limit then |month| else limit
    ensures forall e :: e in top ==> e in s.expenses && e.userId == owner && InMonth(e, now)
    ensures NonIncreasing(top)
  {
    var top := Largest(MonthExpenses(s, owner, now), limit);
    assert forall e :: e in top ==> e in multiset(MonthExpenses(s, owner, now));
    top
  }

  /** The ranking keeps the largest: it is drawn from the month's expenses
      (as a multiset) and every expense of the month it leaves out is no
      larger than any it keeps. */
  lemma TopExpensesLargest(s: Store, owner: UserId, now: YearMonth, limit: nat)
    ensures var top := TopExpenses(s, owner, now, limit);
      var month := MonthExpenses(s, owner, now);
      && multiset(top) <= multiset(month)
      && forall x, y :: x in multiset(month) - multiset(top) && y in top ==> x.amount <= y.amount
  {
  }

  /** The category an expense line shows. */
  datatype ExpenseLabel = InCategory(name: string) | Uncategorized

  function ExpenseLabelOf(s: Store, e: Expense): (l: ExpenseLabel)
    ensures l.Uncategorized? <==> e.categoryId.None? || forall c :: c in s.categories ==> c.id != e.categoryId.value
    ensures l.InCategory? ==> exists c :: c in s.categories && Some(c.id) == e.categoryId && c.name == l.name
  {
    match e.categoryId
    case None => Uncategorized
    case Some(id) =>
      match CategoryById(s, id)
      case Some(c) => InCategory(c.name)
      case None => Uncategorized
  }

  /** The note suffix, shown only for a note that is present and non-empty. */
  function NoteSuffix(note: Option<string>): (r: Option<string>)
    ensures r.Some? <==> note.Some? && note.value != ""
    ensures r.Some? ==> r == note
  {
    if note.Some? && note.value != "" then note else None
  }

  datatype TopLine = TopLine(rank: nat, amount: real, category: ExpenseLabel, note: Option<string>)

  datatype TopReport =
    | NoExpensesThisMonth            // "You have no expenses recorded for this month."
    | Top(count: nat, lines: seq<TopLine>)   // "Your top <count> expense(s) this month:" then the lines

  function NumberLines(s: Store, top: seq<Expense>): (lines: seq<TopLine>)
    ensures |lines| == |top|
    ensures forall i :: 0 <= i < |top| ==>
      lines[i] == TopLine(i + 1, top[i].amount, ExpenseLabelOf(s, top[i]), NoteSuffix(top[i].note))
  {
    seq(|top|, i requires 0 <= i < |top| => TopLine(i + 1, top[i].amount, ExpenseLabelOf(s, top[i]), NoteSuffix(top[i].note)))
  }

  /** The rendered top-expenses tool. */
  function TopExpensesReport(s: Store, owner: UserId, now: YearMonth, limit: nat := DefaultTopLimit): (r: TopReport)
    ensures r.NoExpensesThisMonth? <==> limit == 0 || forall e :: e in s.expenses ==> e.userId != owner || !InMonth(e, now)
    ensures r.Top? ==> 1 <= r.count == |r.lines| <= limit
    ensures r.Top? ==> r.lines == NumberLines(s, TopExpenses(s, owner, now, limit))
  {
    var top := TopExpenses(s, owner, now, limit);
    if top == [] then
      assert limit != 0 ==> MonthExpenses(s, owner, now) == [];
      NoExpensesThisMonth
    else
      assert top[0] in s.expenses;
      Top(|top|, NumberLines(s, top))
  }

  /** Numbering a ranking keeps its order: ranks count from 1, the amounts
      do not increase, and line i shows the amount and category of entry i. */
  lemma NumberedLinesOrdered(s: Store, top: seq<Expense>)
    requires NonIncreasing(top)
    ensures var lines := NumberLines(s, top);
      && |lines| == |top|
      && (forall i :: 0 <= i < |lines| ==> lines[i].rank == i + 1)
      && (forall i, j :: 0 <= i < j < |lines| ==> lines[i].amount >= lines[j].amount)
      && (forall i :: 0 <= i < |top| ==>
            lines[i].amount == top[i].amount && lines[i].category == ExpenseLabelOf(s, top[i]))
  {
    var lines := NumberLines(s, top);
    forall i, j | 0 <= i < j < |lines| ensures lines[i].amount >= lines[j].amount {
      assert lines[i].amount == top[i].amount && lines[j].amount == top[j].amount;
    }
  }

  /** With a positive limit and an expense this month the report is a list. */
  lemma TopReportNonEmpty(s: Store, owner: UserId, now: YearMonth, limit: nat)
    requires limit > 0
    requires exists e :: e in s.expenses && e.userId == owner && InMonth(e, now)
    ensures TopExpensesReport(s, owner, now, limit).Top?
  {
  }

  /** The lines of the report: numbered from 1, largest amount first, each
      showing the amount and category of the corresponding top expense. */
  lemma TopReportLines(s: Store, owner: UserId, now: YearMonth, limit: nat)
    ensures var r := TopExpensesReport(s, owner, now, limit);
      var top := TopExpenses(s, owner, now, limit);
      r.Top? ==>
        && |r.lines| == |top|
        && (forall i :: 0 <= i < |r.lines| ==> r.lines[i].rank == i + 1)
        && (forall i, j :: 0 <= i < j < |r.lines| ==> r.lines[i].amount >= r.lines[j].amount)
        && (forall i :: 0 <= i < |top| ==>
              r.lines[i].amount == top[i].amount && r.lines[i].category == ExpenseLabelOf(s, top[i]))
  {
    var r := TopExpensesReport(s, owner, now, limit);
    if r.Top? {
      var top := TopExpenses(s, owner, now, limit);
      assert r.lines == NumberLines(s, top);
      NumberedLinesOrdered(s, top);
    }
  }

  /** Called without a limit the tool lists at most five expenses, the
      largest of the month, and a list whenever the caller spent anything
      this month. */
  lemma DefaultReportAtMostFive(s: Store, owner: UserId, now: YearMonth)
    ensures var r := TopExpensesReport(s, owner, now);
      && (r.Top? ==> |r.lines| <= 5)
      && (r.Top? <==> exists e :: e in s.expenses && e.userId == owner && InMonth(e, now))
  {
  }
}
